=== FILE: README.md ===
# Game-server status monitor: a Dafny model

The system is a chat bot that watches game servers. Administrators register
endpoints ("ip:port" keys with a display name, a two-letter country code and
free-form notes). They also create watch groups: a chat message, keyed
"channel_id:message_id", that lists some endpoint keys. Every cycle the bot
does three things:

- It queries every endpoint and records the answer in a status cache.
- It re-renders each group's message.
- It drops the groups whose message turns out to be deleted.

The configuration document (`servers`, `active_messages`) is rewritten in full
after each change that a handler or a pruning step completes. A change cut
short by an exception stays in memory unwritten: `/removeserver` raising
`KeyError` after earlier deletions (main.py:153-156) is one such path.

This project models that core as pure functions over an explicit state:

- `wrappers.dfy`: `Option`.
- `text.dfy` (`Text`): the string operations the code relies on.
  - `str.strip()` with Python's whitespace set, ASCII `str.lower()`, and `str.split` on one character.
  - `int()` of a decimal string, including sign, `_` digit grouping and the surrounding whitespace `int()` skips. That set is Python's whitespace set without the ASCII separators U+001C-U+001F, which `int()` rejects.
  - `str()` of an integer.
- `ordered_map.dfy` (`OrderedMap`): insertion-ordered dictionaries as key-unique sequences of pairs.
  - Assignment keeps an existing key's position; `del` drops an entry.
- `state.dfy` (`Model`): the endpoint record, the configuration document, the two volatile caches, and the exceptions that can escape.
  - It also holds the log of documents written by `write_config()`.
- `validation.dfy` (`Validation`): `validate_ip`, `validate_port`, `validate_country`.
- `renderer.dfy` (`Renderer`): `generate_embed`.
- `poller.dfy` (`Poller`): `get_server_info` and the polling loop of `monitor_servers`.
- `reconciler.dfy` (`Reconciler`): the group loop and the pruning loop of `monitor_servers`, and the whole cycle.
- `registry.dfy` (`Registry`): the state-changing parts of `/addserver`, `/removeserver` and `/monitor`.

Calls to things outside the model are parameters:

- the game-server query (`query`), fetching a channel and message (`fetch`), and editing a group's message (`edit`);
- the IP-literal parser (`parsesAsIp`) and the ISO 3166 table (`inIsoTable`);
- the clock-dependent summary text of a display (`summary`).

An exception that escapes a handler or a cycle is a `Failure` value. Mutations
made before it stay in the returned state, as they do in place in the program.

Four behaviours of the code are easy to miss when reading it (per-group writes,
uncaught fetch errors, deletion decided from an exception's text, and a
nameless status). The model follows the code in each:

- The code writes the document once per pruned group, inside the pruning loop at monitoring.py:121-125. So a cycle that prunes k groups rewrites the document k times. `Reconciler.CycleWrites` states the per-group writes.
- An exception from fetching an uncached group's channel or message (monitoring.py:99-102) is not caught. So one unreachable message stops the edits of every later group, and all pruning, in that cycle. `Reconciler.WalkFailure` and `Reconciler.MonitorServers` state what happens.
- Only an `AttributeError`, or an exception whose text contains "HTTPException", counts as deletion (monitoring.py:111-117). So every other edit error keeps the group. `Reconciler.DeletionSignals` states the rule.
- A status whose server name is the empty string is rendered online, because monitoring.py:32 tests only `is not None`. So its title is the flag alone, with no name and no offline marker. `Renderer.EmptyNameRendersOnline` states what the code does.

Consequences of the code as written that the model proves:

- An IPv6 literal passes `validate_ip`, so `/addserver` accepts it. Its "ip:port" key then holds several ':'. The poll loop's two-way split (monitoring.py:84) raises on that key, so every later cycle ends at that endpoint. See `Registry.ColonAddressIsAcceptedButBreaksPolling` and `Poller.ColonAddressBreaksPolling`.
- `/removeserver` leaves the watch groups alone. A group that still lists a removed key then renders the "not in config" placeholder for it (`Registry.RemovedServerRendersAsPlaceholder`).

## Model

| member | source | states |
|---|---|---|
| Text.Strip | main.py:85 | The result is the piece of the input left after dropping whitespace from both ends. The dropped characters are all whitespace, and the result neither starts nor ends with whitespace. |
| Text.Lower | main.py:96 | Same length; each character is lower-cased (ASCII letters only); no upper-case letter remains. |
| Text.Split | main.py:81 | At least one piece; no piece holds the separator; joining the pieces with the separator gives back the input. |
| Text.SplitJoin | main.py:81 | Splitting pieces that were joined by a separator they do not contain returns exactly those pieces. |
| Text.SplitPair | monitoring.py:84 | "a:b" with no ':' in a or b splits into exactly [a, b]. |
| Text.SplitMoreThanTwo | monitoring.py:84 | If the address part holds a ':', "a:b" splits into more than two pieces. |
| Text.IndexOfAfter | main.py:84 | `split(":", 1)` splits at the first ':'. After a ':'-free prefix, that is the ':' right after the prefix. |
| Text.ContainsAt | monitoring.py:115 | `sub in s` (`Text.Contains`) holds exactly when `sub` is a prefix of the text from some position on. |
| Text.IntToString | main.py:114 | `str(i)` is canonical: a '-' exactly when `i` is negative and only in front, digits after it, and no leading '0' unless the text is "0". It holds no ':'. |
| Text.ParseInt | main.py:90 | `int()` of a text with no digit at all fails. Text that `int()` accepts holds only digits, signs, underscores and the whitespace `int()` skips. So "27015a", "1.5" and a port after U+001C are rejected. |
| Text.ParseIntToString | main.py:90 | `int(str(p)) == p` for every integer, negative ones included. |
| OrderedMap.Put | main.py:114 | Dictionary assignment: the key maps to the new value, the other keys keep their values, keys stay unique, and the length grows only for a new key. |
| OrderedMap.PutKeys | main.py:85 | Assigning to an existing key keeps the key order; a new key is appended last. |
| OrderedMap.Without | monitoring.py:123 | After `del`, a key is present exactly when it was present and was not deleted. |
| OrderedMap.WithoutWithout | monitoring.py:121-123 | Deleting one batch of keys and then another equals deleting both at once. |
| Validation.ValidateIp | validation.py:5-10 | True exactly when the address parses as an IP literal. |
| Validation.ValidatePort | validation.py:13-16 | True exactly when 1 <= port <= 65535; so 0, the parse-failure value -1, and 65536 are rejected. |
| Validation.ValidateCountry | validation.py:19-27 | False for any length other than 2, without consulting the table; a two-character code is accepted exactly when the table has it. |
| Renderer.GenerateEmbed | monitoring.py:8-61 | Exactly one field per requested key, in request order, each rendered from that key alone, then the summary field last. |
| Renderer.RenderedField | monitoring.py:11-53 | A field is the placeholder exactly when its key is not configured, whatever the cache holds. For a configured key: the body starts with "**IP:** key" and ends with the notes; the OFFLINE body appears exactly when the cache has no status with a server name; the title is the configured name plus the OFFLINE marker in that case, otherwise the queried name, and the body has the counts and map. |
| Renderer.OnlineField | monitoring.py:32-44 | `Renderer.ServerField` for a configured key with a named status: the title is the flag and the queried name; the body starts with "**IP:** key" and the counts, never starts like the offline body, and ends with the notes. |
| Renderer.OfflineField | monitoring.py:45-53 | `Renderer.ServerField` for a configured key without a named status: the title is the flag, the configured name and the OFFLINE marker; the body starts with "**IP:** key" and the N/A lines and ends with the notes. |
| Renderer.EmptyNameRendersOnline | monitoring.py:32-44 | A status whose name is the empty string is shown online, under the flag alone, and not as offline. |
| Renderer.OnlineIsNotOffline | monitoring.py:32-53 | An online body never begins like an offline body. |
| Renderer.NotesOneLineEach | monitoring.py:28-30 | The notes block is one "**k:** v" line per note, in note order, each after a line break. |
| Renderer.NotesTextIsJoin | monitoring.py:28-30 | The notes block equals the note lines joined by line breaks after an empty first line. |
| Poller.GetServerInfo | monitoring.py:64-76 | Raises exactly when the key is not configured or the query raised an uncaught error. An answer is stored as given. A broken message, an exhausted buffer or a timeout stores the empty status. |
| Poller.ProbeStored | monitoring.py:84-86 | The loop body `Poller.ProbeEndpoint` stores a record exactly when the key splits into two parts, the port part parses, the re-built key is configured and the query raised nothing uncaught. |
| Poller.ProbeCanonicalKey | monitoring.py:84-86 | For an address without ':', probing the key "ip:port" queries exactly (ip, port). |
| Poller.ProbeColonAddress | monitoring.py:84 | For an address with ':', probing its key raises the split error. |
| Poller.PollServers | monitoring.py:83-91 | The poll completes exactly when every configured key's probe completes. Then every configured key's entry is this cycle's result. No entry is dropped, and entries of unconfigured keys are unchanged. |
| Poller.TimeoutResetsStatus | monitoring.py:73-91 | A timed-out or broken query leaves the empty status, whatever was cached before. |
| Poller.ColonAddressBreaksPolling | monitoring.py:83-86 | A configured key with a ':' in its address makes the whole poll raise. |
| Reconciler.Resolve | monitoring.py:97-102 | A handle is obtained exactly when the key splits into two ids and fetching them succeeds, and it is the fetched one. Otherwise the failure is the malformed key when the split does not give two parts, and the fetch error when it does. |
| Reconciler.DeletionSignals | monitoring.py:111-117 | `Reconciler.SignalsDeletion`: a successful edit never signals deletion, an `AttributeError` always does, and any other exception does exactly when "HTTPException" occurs in its text. |
| Reconciler.Deleted | monitoring.py:106-117 | The marked groups are exactly the groups whose edit signalled deletion, each once. |
| Reconciler.DeletedIsFilter | monitoring.py:96-117 | The marks are the group keys filtered by the deletion signal, in the order the loop visits the groups. |
| Reconciler.DeletedInGroupOrder | monitoring.py:96-117 | Of two marks, the earlier one belongs to the group that comes earlier in the document. |
| Reconciler.WalkGroups | monitoring.py:96-119 | The loop edits at most one message per group, and marks no more groups than it edits. It completes exactly when every group was edited. |
| Reconciler.WalkFailure | monitoring.py:96-102 | The group loop ends early exactly at the first uncached group that cannot be resolved, with that group's exception. |
| Reconciler.WalkHandles | monitoring.py:97-102 | Cached handles are kept and reused. A handle is added only for a group the loop reached, and it is the one resolution returned. |
| Reconciler.WalkEdits | monitoring.py:106-110 | Every group reached is edited once, in group order, through its cached handle, with its freshly rendered display. |
| Reconciler.WalkMarked | monitoring.py:111-117 | A loop that reaches every group marks exactly the deleted groups. |
| Reconciler.WalkCachedIgnoresResolve | monitoring.py:97-102 | When every group is cached, the loop never resolves anything. |
| Reconciler.Prune | monitoring.py:121-125 | Pruning never touches the servers or the status cache. It appends exactly one written document per marked group, after the earlier writes. |
| Reconciler.PruneRemoves | monitoring.py:121-123 | Pruning removes exactly the marked groups from the document and the handle cache, keeping the others in order. |
| Reconciler.PruneWrites | monitoring.py:121-125 | The document is written once per marked group, right after that group's removal; earlier writes are kept. |
| Reconciler.SnapshotContents | monitoring.py:121-125 | The i-th document written lacks exactly the first i + 1 marked groups. |
| Reconciler.MonitorServers | monitoring.py:79-125 | A cycle never changes the servers. A cycle that raises leaves the document unwritten and unchanged. |
| Reconciler.CyclePolls | monitoring.py:83-91 | No status entry is lost. After a completed cycle every configured key's entry is this cycle's result. |
| Reconciler.CycleKeepsGroups | monitoring.py:94-125 | After a completed cycle a group remains exactly when its edit did not signal deletion, with its key list unchanged. |
| Reconciler.CycleCachesKeptGroups | monitoring.py:96-107 | After a completed cycle every remaining group has a cached handle, and a handle cached before is the one kept. |
| Reconciler.CycleDropsRemovedHandles | monitoring.py:121-123 | After a completed cycle no removed group has a cached handle. |
| Reconciler.CycleWrites | monitoring.py:121-125 | A completed cycle writes one document per removed group, each lacking the groups removed so far. |
| Reconciler.CycleWithoutDeletionWritesNothing | monitoring.py:121-125 | A completed cycle in which no edit signalled deletion neither changes nor writes the document. |
| Reconciler.CycleEdits | monitoring.py:106-110 | A completed cycle edits every group once, in group order, with the display rendered from this cycle's poll. |
| Reconciler.CycleCachedIgnoresFetch | monitoring.py:97-102 | When every group's handle is cached, the cycle's outcome does not depend on fetching. |
| Registry.ParseNoteLine | main.py:82-85 | A line yields a pair exactly when it holds ':'; a line without line breaks yields a key and a value without line breaks. |
| Registry.ParseNoteLineAt | main.py:83-85 | A line whose first ':' follows a ':'-free key yields the stripped key and the stripped rest of the line. |
| Registry.NoteLineRoundTrip | main.py:83-85 | A stripped, ':'-free key and a stripped value written as "k:v" parse back to that pair. |
| Registry.ParseNotes | main.py:79-85 | The notes dictionary has unique keys, and a key is in it exactly when some line holding ':' names it. |
| Registry.ParsedNoteKeys | main.py:79-85 | The notes have unique keys. They are exactly the keys of the lines holding ':', in the order of each key's first line. |
| Registry.ParsedNoteValue | main.py:85 | A key given on several lines keeps the value of its last line. |
| Registry.PutAllLastWins | main.py:82-85 | Assigning pairs in turn leaves each key with its last pair's value. A key no pair names keeps its value. |
| Registry.PutAllOrder | main.py:82-85 | Assigning pairs in turn keeps the existing keys in place and appends new keys in order of first appearance. |
| Registry.ParsedNotesSingleLine | main.py:81-85 | No parsed key or value spans two lines. |
| Registry.ParsedNotesDistinct | main.py:79-85 | With no repeated key, the notes are the lines' pairs in line order. |
| Registry.ParsePort | main.py:88-92 | A port text that `int()` rejects becomes -1, and one it accepts becomes that integer. |
| Registry.SeparatorPortIsInvalid | main.py:88-92 | A port text that starts with U+001C is rejected by `int()`, so the port stays -1 and is refused as invalid. |
| Registry.ParsedPort | main.py:87-92 | A port that passes validation is exactly the integer typed, and any written-out integer reads back as itself. |
| Registry.Problems | main.py:100-109 | No problem is reported exactly when the address parses, the port is in range, the lower-cased country is valid and the key is not yet listed. |
| Registry.ProblemsReported | main.py:100-109 | Each of the four problems is listed exactly when its own check fails, independently of the others. |
| Registry.AddServer | main.py:79-117 | A refusal lists the problems and leaves the state unchanged. A success appends exactly "ip:port" with the record built from the form, keeps the groups and caches, and writes the new document once. |
| Registry.DeleteAll | main.py:153-154 | Deletion never adds entries: every key left was there before, and there are no more entries than before. A `KeyError` names a key absent from what is left. |
| Registry.DeleteAllSucceeds | main.py:153-154 | The deletions succeed exactly when each selected key is still present when its turn comes, and then remove exactly the selected keys. |
| Registry.DeleteAllStops | main.py:153-154 | The loop deletes a prefix of the selection. A failure names the first key found missing. |
| Registry.RemoveServers | main.py:127-156 | The handler never touches the groups or the caches. A `KeyError` escapes before the write. Otherwise the document is written once, or nothing changes. |
| Registry.RemovedServers | main.py:127-156 | Groups and caches are never touched, and with no servers nothing changes. Otherwise, a selection of present keys removes exactly them and writes once. A missing key raises before the write, with the earlier deletions kept. |
| Registry.AddThenRemove | main.py:113-156 | Adding a server and then removing its key restores the document. |
| Registry.ColonAddressIsAcceptedButBreaksPolling | main.py:102-115 | A ':'-holding address that passes validation is registered, and the next poll then raises. |
| Registry.RemovedServerRendersAsPlaceholder | main.py:151-156 | A removed server still listed by a group renders as the "not in config" placeholder. |
| Registry.GroupKeySplits | main.py:223-225 | A group key "channel_id:message_id" splits back into its two ids. |
| Registry.RegisteredGroupResolves | main.py:223-225 | A registered group's key resolves exactly when fetching its two ids succeeds. |
| Registry.MonitorGroup | main.py:198-233 | Nothing changes and nothing is shown when no server is configured or no selection arrives in time. Otherwise the group's display is shown. |
| Registry.MonitorGroupRegisters | main.py:222-233 | Registration sets exactly one group to the chosen keys, overwriting any earlier entry. It keeps the other groups and the servers, caches the menu message's handle, and writes once. |
| Registry.MonitorGroupShows | main.py:228-232 | The display shown on registration lists the chosen servers in the order chosen, rendered from the current status cache, then the summary. |

## Left out

- Reading and writing `config.yaml` (config.py:15-32) is not modelled. `write_config()` appends the in-memory document to a log of written documents.
  - Also not modelled: `read_config` returns the default document on a missing file without assigning it, and its caller ignores the return value.
- The chat-platform plumbing is left out: modals, select menus, replies, `delete_after`, `sleep`, and deleting the menu message.
  - The reply texts of `/addserver` (main.py:103-117) are not modelled. The reply is `Added`, or `Refused` with the list of problems in the order they are checked.
  - So are the role checks (main.py:21-34), the presence text (main.py:37-43), `on_ready`, the command error listener, and the interval triggers.
  - Each handler and each cycle is one atomic step. The interleaving of handlers with a cycle at `await` points is not modelled.
- `list_servers` (main.py:166-185) only reads the document, so it is not modelled.
- The game-server query protocol is the `query` parameter. The model sees only the outcome class: an answer, one of the three caught errors, or another exception.
  - The empty `SourceInfo()` is the status whose server name is `None`.
- Log messages (`print`) are not modelled.
- The summary field's text is the `summary` parameter. It depends on the clock, the measured query time and float rounding.
- Validation.ValidateIp: the IP-literal grammar of `ipaddress.ip_address` is the `parsesAsIp` parameter. Validation.ValidateCountry does the same with the ISO 3166 table, through `inIsoTable`.
- Text.ParseInt: Python's `int()` also accepts non-ASCII decimal digits, and these are not modelled; only ASCII digits are.
- Text.Lower: only ASCII letters are lower-cased, whereas Python's `str.lower()` folds all of Unicode.
- Text.Strip: Python's whitespace set is listed by code point. No Unicode database is consulted.
- Registry.MonitorGroup: the model assumes the `edit_origin` call (main.py:228-232) succeeds. If it raised, the group would stay registered and cached but unwritten; that path is not modelled.
- Registry.RemoveServers: the selection is any sequence of keys. The menu's bounds on how many values may be chosen are not modelled.
- `inline=False` on embed fields and the embed's fixed description are not modelled. They are constants with no bearing on the properties.

=== FILE: ordered_map.dfy ===
/**
 * Python dictionaries as the bot uses them: insertion-ordered, assignment to an
 * existing key keeps its position, assignment to a new key appends, `del`
 * drops the entry. A dictionary is a sequence of (key, value) entries.
 */
module OrderedMap {
  import opened Wrappers

  /** Every dictionary of the bot is keyed by strings. */
  type OMap<V> = seq<(string, V)>

  /** The keys in iteration order. */
  function Keys<V>(m: OMap<V>): (ks: seq<string>)
    ensures |ks| == |m|
    ensures forall i :: 0 <= i < |m| ==> ks[i] == m[i].0
  {
    if |m| == 0 then [] else [m[0].0] + Keys(m[1..])
  }

  predicate HasKey<V>(m: OMap<V>, k: string) {
    k in Keys(m)
  }

  /** No key occurs twice, as in every Python dictionary. */
  predicate UniqueKeys<V>(m: OMap<V>) {
    forall i, j :: 0 <= i < j < |m| ==> m[i].0 != m[j].0
  }

  /** The position of the first entry for `k`. */
  function Position<V>(m: OMap<V>, k: string): (i: nat)
    requires HasKey(m, k)
    ensures i < |m| && m[i].0 == k
    ensures !HasKey(m[..i], k)
  {
    if m[0].0 == k then
      assert Keys(m[..0]) == [];
      0
    else
      assert Keys(m) == [m[0].0] + Keys(m[1..]);
      var j := Position(m[1..], k);
      assert m[..1 + j][1..] == m[1..][..j];
      assert Keys(m[..1 + j]) == [m[0].0] + Keys(m[1..][..j]);
      1 + j
  }

  /** The first entry for `k` is the one with no earlier entry for `k`. */
  lemma {:induction false} FirstPosition<V>(m: OMap<V>, k: string, i: nat)
    requires i < |m| && m[i].0 == k && !HasKey(m[..i], k)
    ensures HasKey(m, k) && Position(m, k) == i
  {
    assert Keys(m)[i] == k;
    if i > 0 {
      assert Keys(m[..i])[0] == m[0].0;
      assert m[..i][1..] == m[1..][..i - 1];
      assert Keys(m[..i]) == [m[0].0] + Keys(m[1..][..i - 1]);
      FirstPosition(m[1..], k, i - 1);
    }
  }

  /** `m[k]`: the value stored under `k`. */
  function Get<V>(m: OMap<V>, k: string): (v: V)
    requires HasKey(m, k)
    ensures v == m[Position(m, k)].1
  {
    m[Position(m, k)].1
  }

  /** In a dictionary every entry is the one found under its own key. */
  lemma GetEntry<V>(m: OMap<V>, i: nat)
    requires UniqueKeys(m) && i < |m|
    ensures HasKey(m, m[i].0) && Get(m, m[i].0) == m[i].1
  {
    assert Keys(m)[i] == m[i].0;
    var p := Position(m, m[i].0);
    assert m[p].0 == m[i].0;
  }

  /** A key present in `m` but not on its last entry is present before the last entry. */
  lemma HasKeyBeforeLast<V>(m: OMap<V>, k: string)
    requires HasKey(m, k) && m[|m| - 1].0 != k
    ensures HasKey(m[..|m| - 1], k)
  {
    var i :| 0 <= i < |m| && Keys(m)[i] == k;
    assert m[..|m| - 1][i] == m[i];
    assert Keys(m[..|m| - 1])[i] == k;
  }

  /** In a dictionary an entry's key is found at the entry's own position. */
  lemma PositionOfEntry<V>(m: OMap<V>, i: nat)
    requires UniqueKeys(m) && i < |m|
    ensures HasKey(m, m[i].0) && Position(m, m[i].0) == i
  {
    assert Keys(m)[i] == m[i].0;
  }

  /** `m[k] = v`: an existing key is overwritten in place, a new key is appended. */
  function Put<V>(m: OMap<V>, k: string, v: V): (r: OMap<V>)
    ensures |r| == if HasKey(m, k) then |m| else |m| + 1
    ensures HasKey(r, k) && Get(r, k) == v
    ensures forall k' :: HasKey(r, k') <==> k' == k || HasKey(m, k')
    ensures UniqueKeys(m) ==> UniqueKeys(r)
    ensures UniqueKeys(m) ==> forall k' :: k' != k && HasKey(m, k') ==> Get(r, k') == Get(m, k')
  {
    AssignFacts(m, k, v);
    Assign(m, k, v)
  }

  /** The entries after `m[k] = v`; `Put` states what they are. */
  function Assign<V>(m: OMap<V>, k: string, v: V): OMap<V> {
    if HasKey(m, k) then m[Position(m, k) := (k, v)] else m + [(k, v)]
  }

  /** A key not yet present is appended at the end. */
  lemma PutAppends<V>(m: OMap<V>, k: string, v: V)
    requires !HasKey(m, k)
    ensures Put(m, k, v) == m + [(k, v)]
  {
  }

  /** Assignment never reorders: an existing key stays where it was, a new one goes last. */
  lemma PutKeys<V>(m: OMap<V>, k: string, v: V)
    ensures Keys(Put(m, k, v)) == if HasKey(m, k) then Keys(m) else Keys(m) + [k]
  {
    AssignKeys(m, k, v);
  }

  lemma KeysAppend<V>(m: OMap<V>, e: (string, V))
    ensures Keys(m + [e]) == Keys(m) + [e.0]
  {
    var r := m + [e];
    forall i | 0 <= i < |r|
      ensures Keys(r)[i] == (Keys(m) + [e.0])[i]
    {
      assert r[i].0 == if i < |m| then m[i].0 else e.0;
    }
  }

  lemma KeysUpdate<V>(m: OMap<V>, p: nat, e: (string, V))
    requires p < |m| && e.0 == m[p].0
    ensures Keys(m[p := e]) == Keys(m)
  {
    var r := m[p := e];
    forall i | 0 <= i < |m|
      ensures Keys(r)[i] == Keys(m)[i]
    {
      assert r[i].0 == m[i].0;
    }
  }

  lemma AssignKeys<V>(m: OMap<V>, k: string, v: V)
    ensures Keys(Assign(m, k, v)) == if HasKey(m, k) then Keys(m) else Keys(m) + [k]
  {
    if HasKey(m, k) {
      KeysUpdate(m, Position(m, k), (k, v));
    } else {
      KeysAppend(m, (k, v));
    }
  }

  lemma AssignGet<V>(m: OMap<V>, k: string, v: V)
    ensures HasKey(Assign(m, k, v), k) && Get(Assign(m, k, v), k) == v
  {
    var r := Assign(m, k, v);
    AssignKeys(m, k, v);
    if HasKey(m, k) {
      var p := Position(m, k);
      assert r[..p] == m[..p];
      FirstPosition(r, k, p);
    } else {
      assert r[..|m|] == m;
      FirstPosition(r, k, |m|);
    }
  }

  lemma AssignUnique<V>(m: OMap<V>, k: string, v: V)
    requires UniqueKeys(m)
    ensures UniqueKeys(Assign(m, k, v))
  {
    var r := Assign(m, k, v);
    AssignKeys(m, k, v);
    forall i, j | 0 <= i < j < |r|
      ensures r[i].0 != r[j].0
    {
      assert Keys(r)[i] == r[i].0 && Keys(r)[j] == r[j].0;
      if j == |m| {
        assert Keys(m)[i] == r[i].0;
      }
    }
  }

  lemma AssignOther<V>(m: OMap<V>, k: string, v: V, k': string)
    requires UniqueKeys(m) && k' != k && HasKey(m, k')
    ensures HasKey(Assign(m, k, v), k') && Get(Assign(m, k, v), k') == Get(m, k')
  {
    var r := Assign(m, k, v);
    AssignUnique(m, k, v);
    var i := Position(m, k');
    assert i < |r| && r[i] == m[i];
    GetEntry(m, i);
    GetEntry(r, i);
  }

  lemma AssignFacts<V>(m: OMap<V>, k: string, v: V)
    ensures var r := Assign(m, k, v);
      && |r| == (if HasKey(m, k) then |m| else |m| + 1)
      && HasKey(r, k) && Get(r, k) == v
      && (forall k' :: HasKey(r, k') <==> k' == k || HasKey(m, k'))
      && (UniqueKeys(m) ==> UniqueKeys(r))
      && (UniqueKeys(m) ==> forall k' :: k' != k && HasKey(m, k') ==> Get(r, k') == Get(m, k'))
  {
    AssignKeys(m, k, v);
    AssignGet(m, k, v);
    if UniqueKeys(m) {
      AssignUnique(m, k, v);
      forall k' | k' != k && HasKey(m, k')
        ensures Get(Assign(m, k, v), k') == Get(m, k')
      {
        AssignOther(m, k, v, k');
      }
    }
  }

  /** The entries of `m` whose keys are not listed in `ks`, in their original order; `del m[k]` is `Without(m, [k])`. */
  function Without<V>(m: OMap<V>, ks: seq<string>): (r: OMap<V>)
    ensures |r| <= |m|
    ensures forall k' :: HasKey(r, k') <==> k' !in ks && HasKey(m, k')
  {
    if |m| == 0 then []
    else
      var rest := Without(m[1..], ks);
      assert Keys(m) == [m[0].0] + Keys(m[1..]);
      if m[0].0 in ks then rest
      else
        assert Keys([m[0]] + rest) == [m[0].0] + Keys(rest);
        [m[0]] + rest
  }

  lemma {:induction false} WithoutUnique<V>(m: OMap<V>, ks: seq<string>)
    ensures UniqueKeys(m) ==> UniqueKeys(Without(m, ks))
  {
    if |m| > 0 && UniqueKeys(m) {
      WithoutUnique(m[1..], ks);
      if m[0].0 !in ks {
        var r := Without(m, ks);
        assert !HasKey(m[1..], m[0].0);
        forall i, j | 0 <= i < j < |r|
          ensures r[i].0 != r[j].0
        {
          if i == 0 {
            assert Keys(Without(m[1..], ks))[j - 1] == r[j].0;
          }
        }
      }
    }
  }

  lemma {:induction false} WithoutGet<V>(m: OMap<V>, ks: seq<string>)
    requires UniqueKeys(m)
    ensures forall k' :: k' !in ks && HasKey(m, k') ==> Get(Without(m, ks), k') == Get(m, k')
  {
    if |m| > 0 {
      var t := m[1..];
      UniqueTail(m);
      WithoutGet(t, ks);
      forall k' | k' !in ks && HasKey(m, k')
        ensures Get(Without(m, ks), k') == Get(m, k')
      {
        if m[0].0 == k' {
          WithoutHead(m, ks);
        } else {
          GetTail(m, k');
          if m[0].0 !in ks {
            WithoutHead(m, ks);
            var r := Without(m, ks);
            assert r[0] == m[0] && r[1..] == Without(t, ks);
            GetTail(r, k');
          }
        }
      }
    }
  }

  /** Past a different first key, lookup continues in the rest. */
  lemma GetTail<V>(m: OMap<V>, k: string)
    requires HasKey(m, k) && m[0].0 != k
    ensures HasKey(m[1..], k) && Get(m, k) == Get(m[1..], k)
  {
    PositionTail(m, k);
  }

  lemma RemoveAtPosition<V>(m: OMap<V>, k: string)
    requires UniqueKeys(m) && HasKey(m, k)
    ensures Without(m, [k]) == m[..Position(m, k)] + m[Position(m, k) + 1..]
  {
    DropsEntry(m, k);
    OmitPointwise(Without(m, [k]), m, Position(m, k));
  }

  /** Removing `k` from a dictionary drops the entry at its position and shifts the later ones down. */
  lemma {:induction false} DropsEntry<V>(m: OMap<V>, k: string)
    requires UniqueKeys(m) && HasKey(m, k)
    ensures var r := Without(m, [k]);
      var q := Position(m, k);
      && |r| == |m| - 1
      && (forall i :: 0 <= i < q ==> r[i] == m[i])
      && (forall i :: q <= i < |r| ==> r[i] == m[i + 1])
  {
    var t := m[1..];
    if m[0].0 == k {
      NotLater(m);
      WithoutAbsent(t, [k]);
    } else {
      PositionTail(m, k);
      WithoutHead(m, [k]);
      UniqueTail(m);
      DropsEntry(t, k);
      var r := Without(m, [k]);
      var w := Without(t, [k]);
      var p := Position(t, k);
      assert r[0] == m[0];
      forall i | 0 < i < |r|
        ensures r[i] == w[i - 1]
      {
      }
    }
  }

  /** A sequence that agrees with `m` before `q` and with `m` shifted by one after it is `m` without its element at `q`. */
  lemma OmitPointwise<T>(r: seq<T>, m: seq<T>, q: nat)
    requires q < |m| && |r| == |m| - 1
    requires forall i :: 0 <= i < q ==> r[i] == m[i]
    requires forall i :: q <= i < |r| ==> r[i] == m[i + 1]
    ensures r == m[..q] + m[q + 1..]
  {
    var s := m[..q] + m[q + 1..];
    forall i | q <= i < |r|
      ensures s[i] == r[i]
    {
      assert s[i] == m[q + 1..][i - q];
    }
    assert forall i :: 0 <= i < |r| ==> s[i] == r[i];
  }

  /** Past a different first key, the search continues in the rest. */
  lemma PositionTail<V>(m: OMap<V>, k: string)
    requires HasKey(m, k) && m[0].0 != k
    ensures HasKey(m[1..], k) && Position(m, k) == 1 + Position(m[1..], k)
  {
    assert Keys(m) == [m[0].0] + Keys(m[1..]);
  }

  /** A first entry that is kept stays first. */
  lemma WithoutHead<V>(m: OMap<V>, ks: seq<string>)
    requires |m| > 0 && m[0].0 !in ks
    ensures Without(m, ks) == [m[0]] + Without(m[1..], ks)
  {
  }

  lemma UniqueTail<V>(m: OMap<V>)
    requires |m| > 0 && UniqueKeys(m)
    ensures UniqueKeys(m[1..])
  {
    var t := m[1..];
    forall i, j | 0 <= i < j < |t|
      ensures t[i].0 != t[j].0
    {
      assert t[i] == m[i + 1] && t[j] == m[j + 1];
    }
  }

  /** The keys of a prefix are the first key and the keys of the rest's prefix. */
  lemma PrefixKeys<V>(m: OMap<V>, j: nat)
    requires j < |m|
    ensures forall k :: HasKey(m[..j + 1], k) <==> k == m[0].0 || HasKey(m[1..][..j], k)
  {
    var ks := Keys(m[1..][..j]);
    assert Keys(m[..j + 1]) == [m[0].0] + ks;
    forall k
      ensures HasKey(m[..j + 1], k) <==> k == m[0].0 || HasKey(m[1..][..j], k)
    {
      assert k in [m[0].0] + ks <==> k == m[0].0 || k in ks;
    }
  }

  /** In a dictionary the first key does not come back in any prefix of the rest. */
  lemma NotInLaterPrefix<V>(m: OMap<V>, j: nat)
    requires UniqueKeys(m) && j < |m|
    ensures !HasKey(m[1..][..j], m[0].0)
  {
  }

  /** Every key of a prefix is a key of the whole. */
  lemma PrefixKeysIncluded<V>(m: OMap<V>, j: nat)
    requires j <= |m|
    ensures forall k :: HasKey(m[..j], k) ==> HasKey(m, k)
  {
    assert Keys(m[..j]) == Keys(m)[..j];
  }

  /** In a dictionary the first key does not come back later. */
  lemma NotLater<V>(m: OMap<V>)
    requires |m| > 0
    ensures UniqueKeys(m) ==> !HasKey(m[1..], m[0].0)
  {
  }

  /** Removing keys that are not there changes nothing. */
  lemma {:induction false} WithoutAbsent<V>(m: OMap<V>, ks: seq<string>)
    requires forall k :: k in ks ==> !HasKey(m, k)
    ensures Without(m, ks) == m
  {
    if |m| > 0 {
      assert Keys(m) == [m[0].0] + Keys(m[1..]);
      WithoutAbsent(m[1..], ks);
    }
  }

  /** Deleting a key that was just appended gives back the dictionary it was appended to. */
  lemma RemoveAppended<V>(m: OMap<V>, k: string, v: V)
    requires UniqueKeys(m) && !HasKey(m, k)
    ensures HasKey(m + [(k, v)], k) && UniqueKeys(m + [(k, v)])
    ensures Without(m + [(k, v)], [k]) == m
  {
    var r := m + [(k, v)];
    PutAppends(m, k, v);
    assert r[..|m|] == m;
    FirstPosition(r, k, |m|);
    RemoveAtPosition(r, k);
    assert r[|m| + 1..] == [];
  }

  /** Removing `a` and then `b` is removing `a + b` at once. */
  lemma {:induction false} WithoutWithout<V>(m: OMap<V>, a: seq<string>, b: seq<string>)
    ensures Without(Without(m, a), b) == Without(m, a + b)
  {
    if |m| > 0 {
      WithoutWithout(m[1..], a, b);
    }
  }
}

=== FILE: poller.dfy ===
/**
 * The polling half of `monitor_servers` (monitoring.py) and `get_server_info`:
 * every configured endpoint, in configuration order, is queried once and its
 * cache entry is overwritten with this cycle's answer.
 */
module Poller {
  import opened Wrappers
  import opened OrderedMap
  import opened Text
  import opened Model

  /** What awaiting the status query for one endpoint (five-second timeout) yields. */
  datatype QueryOutcome =
    | Answered(info: SourceInfo)
    | BrokenMessage      // a2s.BrokenMessageError
    | BufferExhausted    // a2s.BufferExhaustedError
    | TimedOut           // the builtin or the asyncio TimeoutError
    | OtherError         // any other exception, which nothing catches

  /** One endpoint's step: the record to store, or the exception that ends the cycle. */
  datatype Probe = Stored(info: SourceInfo) | Raised(failure: Failure)

  /** The "ip:port" key built from an address and a port. */
  function EndpointKey(ip: string, port: int): string {
    ip + ":" + IntToString(port)
  }

  /**
   * `get_server_info(ip, port)`: the endpoint must be configured under its
   * re-built key; the three caught failure classes store the empty record, any
   * other query exception escapes.
   */
  function GetServerInfo(ip: string, port: int, servers: OMap<Server>, query: (string, int) -> QueryOutcome): (p: Probe)
    ensures p.Raised? <==> !HasKey(servers, EndpointKey(ip, port)) || query(ip, port).OtherError?
    ensures p.Stored? && query(ip, port).Answered? ==> p.info == query(ip, port).info
    ensures p.Stored? && !query(ip, port).Answered? ==> p.info == EmptyInfo
  {
    var key := EndpointKey(ip, port);
    if !HasKey(servers, key) then Raised(UnknownEndpoint(key))
    else
      match query(ip, port)
      case Answered(info) => Stored(info)
      case BrokenMessage => Stored(EmptyInfo)
      case BufferExhausted => Stored(EmptyInfo)
      case TimedOut => Stored(EmptyInfo)
      case OtherError => Raised(QueryError(key))
  }

  /** The loop body for one configured key: split it at ':', parse the port, query. */
  function ProbeEndpoint(key: string, servers: OMap<Server>, query: (string, int) -> QueryOutcome): Probe {
    var parts := Split(key, ':');
    if |parts| != 2 then Raised(MalformedEndpointKey(key))
    else
      match ParseInt(parts[1])
      case None => Raised(MalformedPort(key))
      case Some(port) => GetServerInfo(parts[0], port, servers, query)
  }

  /**
   * A record is stored only for a key that splits into two parts whose port
   * part parses, whose re-built key is configured, and whose query raised
   * nothing uncaught.
   */
  lemma ProbeStored(key: string, servers: OMap<Server>, query: (string, int) -> QueryOutcome)
    ensures ProbeEndpoint(key, servers, query).Stored? <==> var parts := Split(key, ':');
      && |parts| == 2 && ParseInt(parts[1]).Some?
      && HasKey(servers, EndpointKey(parts[0], ParseInt(parts[1]).value))
      && !query(parts[0], ParseInt(parts[1]).value).OtherError?
  {
  }

  /**
   * A key built the way endpoints are added, from an address without ':', is
   * taken apart again into that address and port, so its step is the query's
   * classified outcome.
   */
  lemma ProbeCanonicalKey(ip: string, port: int, servers: OMap<Server>, query: (string, int) -> QueryOutcome)
    requires ':' !in ip && HasKey(servers, EndpointKey(ip, port))
    ensures ProbeEndpoint(EndpointKey(ip, port), servers, query) == GetServerInfo(ip, port, servers, query)
    ensures query(ip, port).OtherError? <==> ProbeEndpoint(EndpointKey(ip, port), servers, query).Raised?
  {
    SplitPair(ip, IntToString(port), ':');
    assert EndpointKey(ip, port) == ip + [':'] + IntToString(port);
    ParseIntToString(port);
  }

  /** An address holding ':' (an IPv6 literal) yields a key the two-way split cannot take apart. */
  lemma ProbeColonAddress(ip: string, port: int, servers: OMap<Server>, query: (string, int) -> QueryOutcome)
    requires ':' in ip
    ensures ProbeEndpoint(EndpointKey(ip, port), servers, query) == Raised(MalformedEndpointKey(EndpointKey(ip, port)))
  {
    assert EndpointKey(ip, port) == ip + [':'] + IntToString(port);
    SplitMoreThanTwo(ip, IntToString(port), ':');
  }

  /** The index of the first entry whose step raises, or the length when none does. */
  function FirstRaised(pending: OMap<Server>, step: string -> Probe): (j: nat)
    ensures j <= |pending|
    ensures forall i :: 0 <= i < j ==> step(pending[i].0).Stored?
    ensures j < |pending| ==> step(pending[j].0).Raised?
  {
    if |pending| == 0 then 0
    else if step(pending[0].0).Raised? then 0
    else 1 + FirstRaised(pending[1..], step)
  }

  /** The cache after the loop, and the exception that ended it early, if any. */
  datatype Poll = Poll(cache: map<string, SourceInfo>, failure: Option<Failure>)

  /**
   * The poll loop over the entries `pending`, `step` being the loop body for one
   * key. Every entry before the first raising one has its cache entry
   * overwritten with this cycle's record; entries not reached keep their old
   * value; nothing is ever deleted.
   */
  function PollEntries(pending: OMap<Server>, step: string -> Probe, cache: map<string, SourceInfo>): (r: Poll)
    requires UniqueKeys(pending)
    ensures var j := FirstRaised(pending, step);
      && (r.failure.None? <==> j == |pending|)
      && (r.failure.Some? ==> j < |pending| && r.failure.value == step(pending[j].0).failure)
      && (forall i :: 0 <= i < j ==> pending[i].0 in r.cache && r.cache[pending[i].0] == step(pending[i].0).info)
      && (forall k :: k in cache && !HasKey(pending[..j], k) ==> k in r.cache && r.cache[k] == cache[k])
      && (forall k :: k in r.cache ==> k in cache || HasKey(pending[..j], k))
  {
    if |pending| == 0 then Poll(cache, None)
    else
      var key := pending[0].0;
      match step(key)
      case Raised(f) =>
        assert pending[..0] == [];
        Poll(cache, Some(f))
      case Stored(info) =>
        var rest := pending[1..];
        assert UniqueKeys(rest);
        var r := PollEntries(rest, step, cache[key := info]);
        var j := FirstRaised(rest, step);
        PrefixKeys(pending, j);
        NotInLaterPrefix(pending, j);
        r
  }

  /** The poll half of `monitor_servers`: every configured key, in configuration order. */
  function PollServers(servers: OMap<Server>, cache: map<string, SourceInfo>, query: (string, int) -> QueryOutcome): (r: Poll)
    requires UniqueKeys(servers)
    ensures r.failure.None? <==> forall i :: 0 <= i < |servers| ==> ProbeEndpoint(servers[i].0, servers, query).Stored?
    ensures r.failure.None? ==> forall i :: 0 <= i < |servers| ==>
      servers[i].0 in r.cache && r.cache[servers[i].0] == ProbeEndpoint(servers[i].0, servers, query).info
    ensures forall k :: k in cache ==> k in r.cache
    ensures forall k :: k in cache && !HasKey(servers, k) ==> r.cache[k] == cache[k]
    ensures forall k :: k in r.cache ==> k in cache || HasKey(servers, k)
  {
    var step := k => ProbeEndpoint(k, servers, query);
    var r := PollEntries(servers, step, cache);
    PrefixKeysIncluded(servers, FirstRaised(servers, step));
    r
  }

  /**
   * No last-known-good value: a configured endpoint whose query timed out is
   * cached as the empty record after a completed poll, whatever it held before.
   */
  lemma TimeoutResetsStatus(servers: OMap<Server>, cache: map<string, SourceInfo>, query: (string, int) -> QueryOutcome, ip: string, port: int)
    requires UniqueKeys(servers)
    requires ':' !in ip && HasKey(servers, EndpointKey(ip, port))
    requires query(ip, port) == TimedOut || query(ip, port) == BrokenMessage || query(ip, port) == BufferExhausted
    ensures var r := PollServers(servers, cache, query);
      r.failure.None? ==> EndpointKey(ip, port) in r.cache && r.cache[EndpointKey(ip, port)] == EmptyInfo
  {
    var key := EndpointKey(ip, port);
    ProbeCanonicalKey(ip, port, servers, query);
    var i := Position(servers, key);
  }

  /** A configured endpoint whose address holds ':' makes every poll end with an exception. */
  lemma ColonAddressBreaksPolling(servers: OMap<Server>, cache: map<string, SourceInfo>, query: (string, int) -> QueryOutcome, ip: string, port: int)
    requires UniqueKeys(servers)
    requires ':' in ip && HasKey(servers, EndpointKey(ip, port))
    ensures PollServers(servers, cache, query).failure.Some?
  {
    ProbeColonAddress(ip, port, servers, query);
    var i := Position(servers, EndpointKey(ip, port));
  }
}

=== FILE: reconciler.dfy ===
/**
 * One monitoring cycle (`monitor_servers` in monitoring.py): poll every
 * endpoint, then walk the watch groups in configuration order, resolving
 * uncached message handles and pushing a freshly rendered display to each,
 * and finally prune the groups whose edit showed the message is gone.
 */
module Reconciler {
  import opened Wrappers
  import opened OrderedMap
  import opened Text
  import opened Model
  import opened Renderer
  import opened Poller
  import opened Seqs

  /** How the edit of a group's message ended. */
  datatype EditOutcome =
    | Edited
    | AttributeErr           // AttributeError
    | OtherErr(text: string) // any other exception, with its `str(e)`

  /** The two signs the code takes for "the message was deleted". */
  predicate SignalsDeletion(o: EditOutcome) {
    o.AttributeErr? || (o.OtherErr? && Contains(o.text, "HTTPException"))
  }

  /**
   * A successful edit never signals deletion; an `AttributeError` always does;
   * any other exception does exactly when "HTTPException" occurs somewhere in
   * its text.
   */
  lemma DeletionSignals(o: EditOutcome)
    ensures o.Edited? ==> !SignalsDeletion(o)
    ensures o.AttributeErr? ==> SignalsDeletion(o)
    ensures o.OtherErr? ==> (SignalsDeletion(o) <==> exists i :: 0 <= i <= |o.text| && "HTTPException" <= o.text[i..])
  {
    if o.OtherErr? {
      ContainsAt(o.text, "HTTPException");
    }
  }

  /** Resolving an uncached group: a handle, or the exception that ends the cycle. */
  datatype Resolution = Resolved(handle: MessageHandle) | Unresolved(failure: Failure)

  /**
   * Lines 97-102 of monitoring.py: split "channel:message" at ':' and fetch the
   * channel, then the message. `fetch` stands for both calls; `None` is an
   * exception from either.
   */
  function Resolve(group: string, fetch: (string, string) -> Option<MessageHandle>): (r: Resolution)
    ensures var parts := Split(group, ':');
      r.Resolved? <==> |parts| == 2 && fetch(parts[0], parts[1]).Some?
    ensures r.Resolved? ==> var parts := Split(group, ':'); |parts| == 2 && fetch(parts[0], parts[1]) == Some(r.handle)
    ensures r.Unresolved? && |Split(group, ':')| != 2 ==> r.failure == MalformedGroupKey(group)
    ensures r.Unresolved? && |Split(group, ':')| == 2 ==> r.failure == FetchError(group)
  {
    var parts := Split(group, ':');
    if |parts| != 2 then Unresolved(MalformedGroupKey(group))
    else
      match fetch(parts[0], parts[1])
      case None => Unresolved(FetchError(group))
      case Some(h) => Resolved(h)
  }

  /** The keys of the groups whose edit signalled deletion, in group order. */
  function Deleted(groups: OMap<seq<string>>, deleted: string -> bool): (r: seq<string>)
    ensures |r| <= |groups|
    ensures forall g :: g in r <==> HasKey(groups, g) && deleted(g)
    ensures UniqueKeys(groups) ==> forall a, b :: 0 <= a < b < |r| ==> r[a] != r[b]
  {
    if |groups| == 0 then []
    else
      var rest := Deleted(groups[1..], deleted);
      assert Keys(groups) == [groups[0].0] + Keys(groups[1..]);
      NotLater(groups);
      if deleted(groups[0].0) then [groups[0].0] + rest else rest
  }

  /** The marked keys are the group keys that signalled deletion, kept in group order. */
  lemma {:induction false} DeletedIsFilter(groups: OMap<seq<string>>, deleted: string -> bool)
    ensures Deleted(groups, deleted) == Filter(Keys(groups), deleted)
    decreases |groups|
  {
    if |groups| > 0 {
      DeletedIsFilter(groups[1..], deleted);
      assert Keys(groups)[1..] == Keys(groups[1..]);
    }
  }

  /** In a document without repeated keys, a group marked earlier comes earlier in the document. */
  lemma DeletedInGroupOrder(groups: OMap<seq<string>>, deleted: string -> bool)
    requires UniqueKeys(groups)
    ensures var r := Deleted(groups, deleted);
      forall a, b :: 0 <= a < b < |r| ==> HasKey(groups, r[a]) && HasKey(groups, r[b]) && Position(groups, r[a]) < Position(groups, r[b])
  {
    var r := Deleted(groups, deleted);
    DeletedIsFilter(groups, deleted);
    forall a, b | 0 <= a < b < |r|
      ensures HasKey(groups, r[a]) && HasKey(groups, r[b]) && Position(groups, r[a]) < Position(groups, r[b])
    {
      var i, j := FilterOrder(Keys(groups), deleted, a, b);
      PositionOfEntry(groups, i);
      PositionOfEntry(groups, j);
    }
  }

  /** The first group that is not cached and cannot be resolved, or the length when there is none. */
  function FirstUnresolved(pending: OMap<seq<string>>, handles: map<string, MessageHandle>, resolve: string -> Resolution): (j: nat)
    ensures j <= |pending|
    ensures forall i :: 0 <= i < j ==> pending[i].0 in handles || resolve(pending[i].0).Resolved?
    ensures j < |pending| ==> pending[j].0 !in handles && resolve(pending[j].0).Unresolved?
  {
    if |pending| == 0 then 0
    else if pending[0].0 !in handles && resolve(pending[0].0).Unresolved? then 0
    else 1 + FirstUnresolved(pending[1..], handles, resolve)
  }

  /** Caching a handle for a group that is not pending does not move the first failure. */
  lemma {:induction false} FirstUnresolvedOtherHandle(pending: OMap<seq<string>>, handles: map<string, MessageHandle>, resolve: string -> Resolution, g: string, h: MessageHandle)
    requires !HasKey(pending, g)
    ensures FirstUnresolved(pending, handles[g := h], resolve) == FirstUnresolved(pending, handles, resolve)
  {
    if |pending| > 0 {
      assert Keys(pending) == [pending[0].0] + Keys(pending[1..]);
      FirstUnresolvedOtherHandle(pending[1..], handles, resolve, g, h);
    }
  }

  /** The handle cache after the group loop, the groups marked for removal, the edits made, and the escaping exception. */
  datatype Walk = Walk(handles: map<string, MessageHandle>, marked: seq<string>, edits: seq<(MessageHandle, Embed)>, failure: Option<Failure>)

  /**
   * The group loop (lines 96-119 of monitoring.py) over the groups `pending`: each group is
   * edited once through its handle, a cached handle being reused and an
   * uncached one resolved and cached first; an unresolvable group ends the loop.
   * The document is not touched, only marks are collected.
   */
  function WalkGroups(pending: OMap<seq<string>>, handles: map<string, MessageHandle>, resolve: string -> Resolution,
                      render: (string, seq<string>) -> Embed, deleted: string -> bool): (w: Walk)
    ensures |w.edits| <= |pending| && |w.marked| <= |w.edits|
    ensures w.failure.None? <==> |w.edits| == |pending|
  {
    if |pending| == 0 then Walk(handles, [], [], None)
    else
      var g := pending[0].0;
      var res := if g in handles then Resolved(handles[g]) else resolve(g);
      match res
      case Unresolved(f) => Walk(handles, [], [], Some(f))
      case Resolved(h) =>
        var w := WalkGroups(pending[1..], handles[g := h], resolve, render, deleted);
        Walk(w.handles, (if deleted(g) then [g] else []) + w.marked, [(h, render(g, pending[0].1))] + w.edits, w.failure)
  }

  /** The loop ends early exactly at the first uncached group that cannot be resolved, with that group's exception. */
  lemma {:induction false} WalkFailure(pending: OMap<seq<string>>, handles: map<string, MessageHandle>, resolve: string -> Resolution,
                                       render: (string, seq<string>) -> Embed, deleted: string -> bool)
    requires UniqueKeys(pending)
    ensures var w := WalkGroups(pending, handles, resolve, render, deleted);
      var j := FirstUnresolved(pending, handles, resolve);
      && (w.failure.None? <==> j == |pending|)
      && (w.failure.Some? ==> j < |pending| && w.failure.value == resolve(pending[j].0).failure)
  {
    if |pending| > 0 {
      var g := pending[0].0;
      if g in handles || resolve(g).Resolved? {
        var h := if g in handles then handles[g] else resolve(g).handle;
        NotLater(pending);
        FirstUnresolvedOtherHandle(pending[1..], handles, resolve, g, h);
        WalkFailure(pending[1..], handles[g := h], resolve, render, deleted);
        var k := FirstUnresolved(pending[1..], handles, resolve);
        assert WalkGroups(pending, handles, resolve, render, deleted).failure
          == WalkGroups(pending[1..], handles[g := h], resolve, render, deleted).failure;
        assert FirstUnresolved(pending, handles, resolve) == k + 1;
        if k < |pending| - 1 {
          TailIndex(pending, k);
        }
      }
    }
  }

  /**
   * Handles already cached are kept and reused; a handle is added only for a
   * group the loop reached, and only the one its resolution returned.
   */
  lemma WalkHandles(pending: OMap<seq<string>>, handles: map<string, MessageHandle>, resolve: string -> Resolution,
                    render: (string, seq<string>) -> Embed, deleted: string -> bool)
    requires UniqueKeys(pending)
    ensures var w := WalkGroups(pending, handles, resolve, render, deleted);
      var j := FirstUnresolved(pending, handles, resolve);
      && (forall g :: g in handles ==> g in w.handles && w.handles[g] == handles[g])
      && (forall g :: g in w.handles ==> g in handles || HasKey(pending[..j], g))
      && (forall g :: g in w.handles && g !in handles ==> resolve(g) == Resolved(w.handles[g]))
  {
    WalkKeepsHandles(pending, handles, resolve, render, deleted);
    WalkAddsReached(pending, handles, resolve, render, deleted);
    WalkAddsResolved(pending, handles, resolve, render, deleted);
  }

  lemma {:induction false} WalkKeepsHandles(pending: OMap<seq<string>>, handles: map<string, MessageHandle>, resolve: string -> Resolution,
                                            render: (string, seq<string>) -> Embed, deleted: string -> bool)
    ensures var w := WalkGroups(pending, handles, resolve, render, deleted);
      forall g :: g in handles ==> g in w.handles && w.handles[g] == handles[g]
  {
    if |pending| > 0 {
      var g := pending[0].0;
      if g in handles || resolve(g).Resolved? {
        var h := if g in handles then handles[g] else resolve(g).handle;
        WalkKeepsHandles(pending[1..], handles[g := h], resolve, render, deleted);
      }
    }
  }

  lemma {:induction false} WalkAddsResolved(pending: OMap<seq<string>>, handles: map<string, MessageHandle>, resolve: string -> Resolution,
                                            render: (string, seq<string>) -> Embed, deleted: string -> bool)
    ensures var w := WalkGroups(pending, handles, resolve, render, deleted);
      forall g :: g in w.handles && g !in handles ==> resolve(g) == Resolved(w.handles[g])
  {
    if |pending| > 0 {
      var g := pending[0].0;
      if g in handles || resolve(g).Resolved? {
        var h := if g in handles then handles[g] else resolve(g).handle;
        WalkKeepsHandles(pending[1..], handles[g := h], resolve, render, deleted);
        WalkAddsResolved(pending[1..], handles[g := h], resolve, render, deleted);
      }
    }
  }

  lemma {:induction false} WalkAddsReached(pending: OMap<seq<string>>, handles: map<string, MessageHandle>, resolve: string -> Resolution,
                                           render: (string, seq<string>) -> Embed, deleted: string -> bool)
    requires UniqueKeys(pending)
    ensures var w := WalkGroups(pending, handles, resolve, render, deleted);
      var j := FirstUnresolved(pending, handles, resolve);
      forall g :: g in w.handles ==> g in handles || HasKey(pending[..j], g)
  {
    if |pending| > 0 {
      var g := pending[0].0;
      if g in handles || resolve(g).Resolved? {
        var h := if g in handles then handles[g] else resolve(g).handle;
        var t := pending[1..];
        FirstUnresolvedStep(pending, handles, resolve, h);
        UniqueTail(pending);
        WalkAddsReached(t, handles[g := h], resolve, render, deleted);
        PrefixKeys(pending, FirstUnresolved(t, handles[g := h], resolve));
      } else {
        assert pending[..0] == [];
      }
    }
  }

  /** Past a group that is cached or resolves, the first failure is searched for in the rest, with that group's handle cached. */
  lemma FirstUnresolvedStep(pending: OMap<seq<string>>, handles: map<string, MessageHandle>, resolve: string -> Resolution, h: MessageHandle)
    requires UniqueKeys(pending) && |pending| > 0
    requires (pending[0].0 in handles && h == handles[pending[0].0]) || (pending[0].0 !in handles && resolve(pending[0].0) == Resolved(h))
    ensures FirstUnresolved(pending, handles, resolve) == 1 + FirstUnresolved(pending[1..], handles[pending[0].0 := h], resolve)
  {
    NotLater(pending);
    FirstUnresolvedOtherHandle(pending[1..], handles, resolve, pending[0].0, h);
  }

  /** Every group the loop reached is edited once, in group order, through its cached handle, with its freshly rendered display. */
  lemma WalkEdits(pending: OMap<seq<string>>, handles: map<string, MessageHandle>, resolve: string -> Resolution,
                  render: (string, seq<string>) -> Embed, deleted: string -> bool)
    requires UniqueKeys(pending)
    ensures var w := WalkGroups(pending, handles, resolve, render, deleted);
      var j := FirstUnresolved(pending, handles, resolve);
      && |w.edits| == j
      && (forall i :: 0 <= i < j ==> pending[i].0 in w.handles && w.edits[i] == (w.handles[pending[i].0], render(pending[i].0, pending[i].1)))
  {
    WalkEditCount(pending, handles, resolve, render, deleted);
    WalkEditsAt(pending, handles, resolve, render, deleted);
  }

  lemma {:induction false} WalkEditCount(pending: OMap<seq<string>>, handles: map<string, MessageHandle>, resolve: string -> Resolution,
                                         render: (string, seq<string>) -> Embed, deleted: string -> bool)
    requires UniqueKeys(pending)
    ensures |WalkGroups(pending, handles, resolve, render, deleted).edits| == FirstUnresolved(pending, handles, resolve)
  {
    if |pending| > 0 {
      var g := pending[0].0;
      if g in handles || resolve(g).Resolved? {
        var h := if g in handles then handles[g] else resolve(g).handle;
        NotLater(pending);
        FirstUnresolvedOtherHandle(pending[1..], handles, resolve, g, h);
        WalkEditCount(pending[1..], handles[g := h], resolve, render, deleted);
      }
    }
  }

  lemma {:induction false} WalkEditsAt(pending: OMap<seq<string>>, handles: map<string, MessageHandle>, resolve: string -> Resolution,
                                       render: (string, seq<string>) -> Embed, deleted: string -> bool)
    requires UniqueKeys(pending)
    ensures var w := WalkGroups(pending, handles, resolve, render, deleted);
      && |w.edits| <= |pending|
      && forall i :: 0 <= i < |w.edits| ==> pending[i].0 in w.handles && w.edits[i] == (w.handles[pending[i].0], render(pending[i].0, pending[i].1))
  {
    WalkEditCount(pending, handles, resolve, render, deleted);
    if |pending| > 0 {
      var g := pending[0].0;
      if g in handles || resolve(g).Resolved? {
        var h := if g in handles then handles[g] else resolve(g).handle;
        var t := pending[1..];
        var w := WalkGroups(pending, handles, resolve, render, deleted);
        var w' := WalkGroups(t, handles[g := h], resolve, render, deleted);
        assert w.handles == w'.handles && w.edits == [(h, render(g, pending[0].1))] + w'.edits;
        WalkKeepsHandles(t, handles[g := h], resolve, render, deleted);
        UniqueTail(pending);
        WalkEditsAt(t, handles[g := h], resolve, render, deleted);
        forall i | 0 <= i < |w.edits|
          ensures pending[i].0 in w.handles && w.edits[i] == (w.handles[pending[i].0], render(pending[i].0, pending[i].1))
        {
          if i > 0 {
            assert w.edits[i] == w'.edits[i - 1] && pending[i] == t[i - 1];
          }
        }
      }
    }
  }

  /** A loop that reaches every group has marked exactly the groups whose edit signalled deletion, in group order. */
  lemma {:induction false} WalkMarked(pending: OMap<seq<string>>, handles: map<string, MessageHandle>, resolve: string -> Resolution,
                                      render: (string, seq<string>) -> Embed, deleted: string -> bool)
    ensures var w := WalkGroups(pending, handles, resolve, render, deleted);
      w.failure.None? ==> w.marked == Deleted(pending, deleted)
  {
    if |pending| > 0 {
      var g := pending[0].0;
      if g in handles || resolve(g).Resolved? {
        var h := if g in handles then handles[g] else resolve(g).handle;
        WalkMarked(pending[1..], handles[g := h], resolve, render, deleted);
        var w := WalkGroups(pending[1..], handles[g := h], resolve, render, deleted);
        assert WalkGroups(pending, handles, resolve, render, deleted).marked == (if deleted(g) then [g] else []) + w.marked;
        assert Deleted(pending, deleted) == (if deleted(g) then [g] else []) + Deleted(pending[1..], deleted);
      }
    }
  }

  /** A loop that reaches every group leaves every group with a cached handle, the old ones unchanged, and marks exactly the deleted groups. */
  lemma WalkComplete(pending: OMap<seq<string>>, handles: map<string, MessageHandle>, resolve: string -> Resolution,
                     render: (string, seq<string>) -> Embed, deleted: string -> bool, w: Walk)
    requires UniqueKeys(pending) && w == WalkGroups(pending, handles, resolve, render, deleted) && w.failure.None?
    ensures forall g :: HasKey(pending, g) ==> g in w.handles
    ensures forall g :: g in handles ==> g in w.handles && w.handles[g] == handles[g]
    ensures w.marked == Deleted(pending, deleted)
    ensures |w.edits| == |pending|
    ensures forall i :: 0 <= i < |pending| ==> w.edits[i].1 == render(pending[i].0, pending[i].1)
  {
    WalkFailure(pending, handles, resolve, render, deleted);
    WalkHandles(pending, handles, resolve, render, deleted);
    WalkEdits(pending, handles, resolve, render, deleted);
    WalkMarked(pending, handles, resolve, render, deleted);
    forall g | HasKey(pending, g)
      ensures g in w.handles
    {
      var i := Position(pending, g);
      assert pending[i].0 in w.handles;
    }
  }

  /**
   * Lines 121-125 of monitoring.py: each marked group is dropped from the handle cache and from
   * the document, and the document is written after every single removal.
   */
  function Prune(st: State, marked: seq<string>): (r: State)
    ensures r.config.servers == st.config.servers && r.serverData == st.serverData
    ensures |r.writes| == |st.writes| + |marked| && r.writes[..|st.writes|] == st.writes
    decreases |marked|
  {
    if |marked| == 0 then st
    else
      var g := marked[0];
      var st1 := st.(config := st.config.(activeMessages := Without(st.config.activeMessages, [g])),
                     cachedMessages := st.cachedMessages - {g});
      Prune(WriteConfig(st1), marked[1..])
  }

  /** Pruning removes exactly the marked groups from the document and the handle cache, keeping the order of the others. */
  lemma {:induction false} PruneRemoves(st: State, marked: seq<string>)
    ensures var r := Prune(st, marked);
      && r.config.servers == st.config.servers && r.serverData == st.serverData
      && r.config.activeMessages == Without(st.config.activeMessages, marked)
      && r.cachedMessages == st.cachedMessages - (set g | g in marked)
    decreases |marked|
  {
    PruneDocument(st, marked);
    PruneHandles(st, marked);
  }

  lemma {:induction false} PruneDocument(st: State, marked: seq<string>)
    ensures var r := Prune(st, marked);
      && r.config.servers == st.config.servers && r.serverData == st.serverData
      && r.config.activeMessages == Without(st.config.activeMessages, marked)
    decreases |marked|
  {
    var am := st.config.activeMessages;
    if |marked| == 0 {
      WithoutAbsent(am, marked);
    } else {
      var g := marked[0];
      var st1 := st.(config := st.config.(activeMessages := Without(am, [g])), cachedMessages := st.cachedMessages - {g});
      PruneDocument(WriteConfig(st1), marked[1..]);
      WithoutWithout(am, [g], marked[1..]);
      assert [g] + marked[1..] == marked;
    }
  }

  lemma ElementsCons(s: seq<string>)
    requires |s| > 0
    ensures (set x | x in s) == {s[0]} + (set x | x in s[1..])
  {
    assert s == [s[0]] + s[1..];
  }

  lemma {:induction false} PruneHandles(st: State, marked: seq<string>)
    ensures Prune(st, marked).cachedMessages == st.cachedMessages - (set g | g in marked)
    decreases |marked|
  {
    if |marked| > 0 {
      var g := marked[0];
      var st1 := st.(config := st.config.(activeMessages := Without(st.config.activeMessages, [g])), cachedMessages := st.cachedMessages - {g});
      PruneHandles(WriteConfig(st1), marked[1..]);
      ElementsCons(marked);
      var later := set x | x in marked[1..];
      assert st1.cachedMessages - later == st.cachedMessages - ({g} + later);
    }
  }

  /** The documents written while removing `marked` one by one from `groups`. */
  function Snapshots(servers: OMap<Server>, groups: OMap<seq<string>>, marked: seq<string>): (w: seq<Config>)
    ensures |w| == |marked|
    decreases |marked|
  {
    if |marked| == 0 then []
    else [Config(servers, Without(groups, [marked[0]]))] + Snapshots(servers, Without(groups, [marked[0]]), marked[1..])
  }

  /** The i-th written document lacks exactly the first i + 1 marked groups. */
  lemma {:induction false} SnapshotContents(servers: OMap<Server>, groups: OMap<seq<string>>, marked: seq<string>)
    ensures forall i :: 0 <= i < |marked| ==>
      Snapshots(servers, groups, marked)[i] == Config(servers, Without(groups, marked[..i + 1]))
    decreases |marked|
  {
    if |marked| > 0 {
      var g := marked[0];
      var w := Snapshots(servers, groups, marked);
      SnapshotContents(servers, Without(groups, [g]), marked[1..]);
      forall i | 0 <= i < |w|
        ensures w[i] == Config(servers, Without(groups, marked[..i + 1]))
      {
        if i > 0 {
          SnapshotStep(servers, groups, marked, i);
        } else {
          FirstPrefix(marked);
        }
      }
    }
  }

  lemma SnapshotStep(servers: OMap<Server>, groups: OMap<seq<string>>, marked: seq<string>, i: nat)
    requires 0 < i < |marked|
    requires Snapshots(servers, Without(groups, [marked[0]]), marked[1..])[i - 1]
      == Config(servers, Without(Without(groups, [marked[0]]), marked[1..][..i]))
    ensures Snapshots(servers, groups, marked)[i] == Config(servers, Without(groups, marked[..i + 1]))
  {
    var g := marked[0];
    var later := Snapshots(servers, Without(groups, [g]), marked[1..]);
    assert Snapshots(servers, groups, marked)[i] == later[i - 1];
    WithoutWithout(groups, [g], marked[1..][..i]);
    PrefixCons(marked, i);
  }

  /**
   * Persistence runs once per marked group, after that group's removal, and
   * earlier writes are untouched: nothing is written when nothing is marked.
   */
  lemma {:induction false} PruneWrites(st: State, marked: seq<string>)
    ensures Prune(st, marked).writes == st.writes + Snapshots(st.config.servers, st.config.activeMessages, marked)
    decreases |marked|
  {
    if |marked| > 0 {
      var am := st.config.activeMessages;
      var g := marked[0];
      var st1 := st.(config := st.config.(activeMessages := Without(am, [g])), cachedMessages := st.cachedMessages - {g});
      PruneWrites(WriteConfig(st1), marked[1..]);
      var later := Snapshots(st.config.servers, Without(am, [g]), marked[1..]);
      assert Snapshots(st.config.servers, am, marked) == [st1.config] + later;
      assert Prune(st, marked) == Prune(WriteConfig(st1), marked[1..]);
      assert st.writes + [st1.config] + later == st.writes + ([st1.config] + later);
    }
  }

  /** What a cycle leaves behind: the state, the edits it made, and the exception that ended it, if any. */
  datatype Cycle = Cycle(state: State, edits: seq<(MessageHandle, Embed)>, failure: Option<Failure>)

  function ResolveWith(fetch: (string, string) -> Option<MessageHandle>): string -> Resolution {
    g => Resolve(g, fetch)
  }

  function RenderWith(servers: OMap<Server>, cache: map<string, SourceInfo>, summary: string -> string): (string, seq<string>) -> Embed {
    (g, keys) => GenerateEmbed(keys, servers, cache, summary(g))
  }

  function DeletedBy(edit: string -> EditOutcome): string -> bool {
    g => SignalsDeletion(edit(g))
  }

  /** The group loop of a cycle, run against the freshly polled status cache. */
  function CycleWalk(st: State, cache: map<string, SourceInfo>, fetch: (string, string) -> Option<MessageHandle>,
                     edit: string -> EditOutcome, summary: string -> string): Walk {
    WalkGroups(st.config.activeMessages, st.cachedMessages, ResolveWith(fetch), RenderWith(st.config.servers, cache, summary), DeletedBy(edit))
  }

  /**
   * `monitor_servers()`. `query`, `fetch` and `edit` are the outcomes of the
   * external calls; `summary(g)` is the clock-dependent summary text of group
   * `g`'s display. An escaping exception ends the cycle where it occurs: what
   * was cached so far stays cached, and nothing is pruned or written.
   */
  function MonitorServers(st: State, query: (string, int) -> QueryOutcome, fetch: (string, string) -> Option<MessageHandle>,
                          edit: string -> EditOutcome, summary: string -> string): (c: Cycle)
    requires WellFormed(st)
    ensures c.state.config.servers == st.config.servers
    ensures c.failure.Some? ==> c.state.config == st.config && c.state.writes == st.writes
  {
    var poll := PollServers(st.config.servers, st.serverData, query);
    if poll.failure.Some? then Cycle(st.(serverData := poll.cache), [], poll.failure)
    else
      var w := CycleWalk(st, poll.cache, fetch, edit, summary);
      var st2 := st.(serverData := poll.cache, cachedMessages := w.handles);
      if w.failure.Some? then Cycle(st2, w.edits, w.failure)
      else
        PruneDocument(st2, w.marked);
        Cycle(Prune(st2, w.marked), w.edits, None)
  }

  /**
   * After a completed cycle every configured endpoint's cache entry is this
   * cycle's record for it, and no cache entry was dropped.
   */
  lemma CyclePolls(st: State, query: (string, int) -> QueryOutcome, fetch: (string, string) -> Option<MessageHandle>,
                   edit: string -> EditOutcome, summary: string -> string, c: Cycle)
    requires WellFormed(st) && c == MonitorServers(st, query, fetch, edit, summary)
    ensures forall k :: k in st.serverData ==> k in c.state.serverData
    ensures c.failure.None? ==> forall i :: 0 <= i < |st.config.servers| ==>
      st.config.servers[i].0 in c.state.serverData
      && ProbeEndpoint(st.config.servers[i].0, st.config.servers, query) == Stored(c.state.serverData[st.config.servers[i].0])
  {
    var poll := PollServers(st.config.servers, st.serverData, query);
    if poll.failure.None? {
      var w := CycleWalk(st, poll.cache, fetch, edit, summary);
      var st2 := st.(serverData := poll.cache, cachedMessages := w.handles);
      if w.failure.None? {
        PruneDocument(st2, w.marked);
      }
    }
  }

  /** A completed cycle got through the poll and the whole group loop, then pruned. */
  lemma CycleCompleted(st: State, query: (string, int) -> QueryOutcome, fetch: (string, string) -> Option<MessageHandle>,
                       edit: string -> EditOutcome, summary: string -> string, c: Cycle, poll: Poll, w: Walk)
    requires WellFormed(st) && c == MonitorServers(st, query, fetch, edit, summary) && c.failure.None?
    requires poll == PollServers(st.config.servers, st.serverData, query)
    requires w == CycleWalk(st, poll.cache, fetch, edit, summary)
    ensures poll.failure.None? && w.failure.None?
    ensures c.state == Prune(st.(serverData := poll.cache, cachedMessages := w.handles), w.marked)
    ensures c.edits == w.edits
  {
  }

  /**
   * After a completed cycle a group is still registered exactly when its edit
   * did not signal deletion, and a kept group keeps its endpoint list.
   */
  lemma CycleKeepsGroups(st: State, query: (string, int) -> QueryOutcome, fetch: (string, string) -> Option<MessageHandle>,
                         edit: string -> EditOutcome, summary: string -> string, c: Cycle)
    requires WellFormed(st) && c == MonitorServers(st, query, fetch, edit, summary)
    ensures UniqueKeys(c.state.config.activeMessages)
    ensures c.failure.None? ==> forall g ::
      HasKey(c.state.config.activeMessages, g) <==> HasKey(st.config.activeMessages, g) && !SignalsDeletion(edit(g))
    ensures c.failure.None? ==> forall g :: HasKey(c.state.config.activeMessages, g) ==>
      Get(c.state.config.activeMessages, g) == Get(st.config.activeMessages, g)
  {
    if c.failure.None? {
      var am := st.config.activeMessages;
      var poll := PollServers(st.config.servers, st.serverData, query);
      var w := CycleWalk(st, poll.cache, fetch, edit, summary);
      CycleCompleted(st, query, fetch, edit, summary, c, poll, w);
      WalkComplete(am, st.cachedMessages, ResolveWith(fetch), RenderWith(st.config.servers, poll.cache, summary), DeletedBy(edit), w);
      PruneDocument(st.(serverData := poll.cache, cachedMessages := w.handles), w.marked);
      WithoutUnique(am, w.marked);
      WithoutGet(am, w.marked);
    }
  }

  /**
   * After a completed cycle every kept group has a cached handle, the one it
   * already had if it had one.
   */
  lemma CycleCachesKeptGroups(st: State, query: (string, int) -> QueryOutcome, fetch: (string, string) -> Option<MessageHandle>,
                              edit: string -> EditOutcome, summary: string -> string, c: Cycle)
    requires WellFormed(st) && c == MonitorServers(st, query, fetch, edit, summary)
    ensures c.failure.None? ==> forall g :: HasKey(st.config.activeMessages, g) && !SignalsDeletion(edit(g)) ==>
      g in c.state.cachedMessages && (g in st.cachedMessages ==> c.state.cachedMessages[g] == st.cachedMessages[g])
  {
    if c.failure.None? {
      var am := st.config.activeMessages;
      var poll := PollServers(st.config.servers, st.serverData, query);
      var w := CycleWalk(st, poll.cache, fetch, edit, summary);
      CycleCompleted(st, query, fetch, edit, summary, c, poll, w);
      WalkComplete(am, st.cachedMessages, ResolveWith(fetch), RenderWith(st.config.servers, poll.cache, summary), DeletedBy(edit), w);
      PruneHandles(st.(serverData := poll.cache, cachedMessages := w.handles), w.marked);
      forall g | HasKey(am, g) && !SignalsDeletion(edit(g))
        ensures g in c.state.cachedMessages && c.state.cachedMessages[g] == w.handles[g]
      {
        assert !DeletedBy(edit)(g);
        assert g !in w.marked;
      }
    }
  }

  /** After a completed cycle no removed group has a cached handle. */
  lemma CycleDropsRemovedHandles(st: State, query: (string, int) -> QueryOutcome, fetch: (string, string) -> Option<MessageHandle>,
                                 edit: string -> EditOutcome, summary: string -> string, c: Cycle)
    requires WellFormed(st) && c == MonitorServers(st, query, fetch, edit, summary)
    ensures c.failure.None? ==> forall g :: HasKey(st.config.activeMessages, g) && SignalsDeletion(edit(g)) ==> g !in c.state.cachedMessages
  {
    if c.failure.None? {
      var am := st.config.activeMessages;
      var poll := PollServers(st.config.servers, st.serverData, query);
      var w := CycleWalk(st, poll.cache, fetch, edit, summary);
      CycleCompleted(st, query, fetch, edit, summary, c, poll, w);
      WalkComplete(am, st.cachedMessages, ResolveWith(fetch), RenderWith(st.config.servers, poll.cache, summary), DeletedBy(edit), w);
      PruneHandles(st.(serverData := poll.cache, cachedMessages := w.handles), w.marked);
      forall g | HasKey(am, g) && SignalsDeletion(edit(g))
        ensures g !in c.state.cachedMessages
      {
        assert DeletedBy(edit)(g);
        assert g in w.marked;
      }
    }
  }

  /**
   * A completed cycle writes the document once per removed group, right after
   * that removal, and never when no group signalled deletion.
   */
  lemma CycleWrites(st: State, query: (string, int) -> QueryOutcome, fetch: (string, string) -> Option<MessageHandle>,
                    edit: string -> EditOutcome, summary: string -> string, c: Cycle)
    requires WellFormed(st) && c == MonitorServers(st, query, fetch, edit, summary)
    ensures c.failure.None? ==> c.state.writes == st.writes + Snapshots(st.config.servers, st.config.activeMessages, Deleted(st.config.activeMessages, DeletedBy(edit)))
  {
    if c.failure.None? {
      var am := st.config.activeMessages;
      var poll := PollServers(st.config.servers, st.serverData, query);
      var w := CycleWalk(st, poll.cache, fetch, edit, summary);
      CycleCompleted(st, query, fetch, edit, summary, c, poll, w);
      WalkComplete(am, st.cachedMessages, ResolveWith(fetch), RenderWith(st.config.servers, poll.cache, summary), DeletedBy(edit), w);
      PruneWrites(st.(serverData := poll.cache, cachedMessages := w.handles), w.marked);
    }
  }

  /** When no group's edit signals deletion, no group is marked. */
  lemma {:induction false} NoneDeleted(groups: OMap<seq<string>>, deleted: string -> bool)
    requires forall i :: 0 <= i < |groups| ==> !deleted(groups[i].0)
    ensures Deleted(groups, deleted) == []
  {
    if |groups| > 0 {
      assert !deleted(groups[0].0);
      NoneDeleted(groups[1..], deleted);
    }
  }

  /** A completed cycle in which no edit signalled deletion neither changes nor writes the document. */
  lemma CycleWithoutDeletionWritesNothing(st: State, query: (string, int) -> QueryOutcome, fetch: (string, string) -> Option<MessageHandle>,
                                          edit: string -> EditOutcome, summary: string -> string, c: Cycle)
    requires WellFormed(st) && c == MonitorServers(st, query, fetch, edit, summary)
    ensures c.failure.None? && (forall i :: 0 <= i < |st.config.activeMessages| ==> !SignalsDeletion(edit(st.config.activeMessages[i].0)))
      ==> c.state.writes == st.writes && c.state.config == st.config
  {
    var am := st.config.activeMessages;
    if c.failure.None? && forall i :: 0 <= i < |am| ==> !SignalsDeletion(edit(am[i].0)) {
      var poll := PollServers(st.config.servers, st.serverData, query);
      var w := CycleWalk(st, poll.cache, fetch, edit, summary);
      CycleCompleted(st, query, fetch, edit, summary, c, poll, w);
      WalkComplete(am, st.cachedMessages, ResolveWith(fetch), RenderWith(st.config.servers, poll.cache, summary), DeletedBy(edit), w);
      NoneDeleted(am, DeletedBy(edit));
      assert w.marked == [];
    }
  }

  /**
   * A completed cycle edits every group once, in group order, with a display
   * rendered from the cache as this cycle's poll left it.
   */
  lemma CycleEdits(st: State, query: (string, int) -> QueryOutcome, fetch: (string, string) -> Option<MessageHandle>,
                   edit: string -> EditOutcome, summary: string -> string, c: Cycle)
    requires WellFormed(st) && c == MonitorServers(st, query, fetch, edit, summary)
    ensures c.failure.None? ==> |c.edits| == |st.config.activeMessages| && forall i :: 0 <= i < |c.edits| ==>
      c.edits[i].1 == GenerateEmbed(st.config.activeMessages[i].1, st.config.servers, c.state.serverData, summary(st.config.activeMessages[i].0))
  {
    if c.failure.None? {
      var am := st.config.activeMessages;
      var poll := PollServers(st.config.servers, st.serverData, query);
      var w := CycleWalk(st, poll.cache, fetch, edit, summary);
      CycleCompleted(st, query, fetch, edit, summary, c, poll, w);
      WalkComplete(am, st.cachedMessages, ResolveWith(fetch), RenderWith(st.config.servers, poll.cache, summary), DeletedBy(edit), w);
      PruneDocument(st.(serverData := poll.cache, cachedMessages := w.handles), w.marked);
    }
  }

  /** When every group already has a cached handle, the loop never resolves anything: its outcome does not depend on `resolve`. */
  lemma {:induction false} WalkCachedIgnoresResolve(pending: OMap<seq<string>>, handles: map<string, MessageHandle>, resolve: string -> Resolution,
                                                    other: string -> Resolution, render: (string, seq<string>) -> Embed, deleted: string -> bool)
    requires forall i :: 0 <= i < |pending| ==> pending[i].0 in handles
    ensures WalkGroups(pending, handles, resolve, render, deleted) == WalkGroups(pending, handles, other, render, deleted)
  {
    if |pending| > 0 {
      var g := pending[0].0;
      assert handles[g := handles[g]] == handles;
      WalkCachedIgnoresResolve(pending[1..], handles, resolve, other, render, deleted);
    }
  }

  /** A cycle in which every group's message handle is already cached fetches nothing: any fetch behaviour gives the same cycle. */
  lemma CycleCachedIgnoresFetch(st: State, query: (string, int) -> QueryOutcome, fetch: (string, string) -> Option<MessageHandle>,
                                other: (string, string) -> Option<MessageHandle>, edit: string -> EditOutcome, summary: string -> string)
    requires WellFormed(st)
    requires forall i :: 0 <= i < |st.config.activeMessages| ==> st.config.activeMessages[i].0 in st.cachedMessages
    ensures MonitorServers(st, query, fetch, edit, summary) == MonitorServers(st, query, other, edit, summary)
  {
    var poll := PollServers(st.config.servers, st.serverData, query);
    WalkCachedIgnoresResolve(st.config.activeMessages, st.cachedMessages, ResolveWith(fetch), ResolveWith(other),
                             RenderWith(st.config.servers, poll.cache, summary), DeletedBy(edit));
  }
}

=== FILE: registry.dfy ===
/**
 * The administrator commands of main.py that change the document: `/addserver`
 * (form parsing, validation, registration), `/removeserver` and `/monitor`.
 * Each handler takes the interaction's outcome as a parameter and returns the
 * new state together with what it shows.
 */
module Registry {
  import opened Wrappers
  import opened OrderedMap
  import opened Text
  import opened Model
  import opened Validation
  import opened Renderer
  import opened Poller
  import opened Reconciler
  import opened Seqs

  // ---------------------------------------------------------------------------
  // Notes: "K:V" lines
  // ---------------------------------------------------------------------------

  /** Line 84 of main.py: a line holding ':' splits at its first ':' into a stripped key and value; other lines are ignored. */
  function ParseNoteLine(line: string): (r: Option<(string, string)>)
    ensures r.Some? <==> ':' in line
    ensures r.Some? ==> '\n' !in line ==> '\n' !in r.value.0 && '\n' !in r.value.1
  {
    if ':' in line then
      var i := IndexOf(line, ':');
      Some((Strip(line[..i]), Strip(line[i + 1..])))
    else None
  }

  /** The key/value pairs of the lines that hold ':', in line order. */
  function NoteEntries(lines: seq<string>): (r: seq<(string, string)>)
    ensures |r| <= |lines|
    ensures (forall i :: 0 <= i < |lines| ==> '\n' !in lines[i]) ==> forall i :: 0 <= i < |r| ==> '\n' !in r[i].0 && '\n' !in r[i].1
  {
    if |lines| == 0 then []
    else
      match ParseNoteLine(lines[0])
      case None => NoteEntries(lines[1..])
      case Some(e) => [e] + NoteEntries(lines[1..])
  }

  /** `notes[key] = value` for each entry in turn. */
  function PutAll(m: OMap<string>, entries: seq<(string, string)>): OMap<string>
    decreases |entries|
  {
    if |entries| == 0 then m else PutAll(Put(m, entries[0].0, entries[0].1), entries[1..])
  }

  /** Lines 79-85 of main.py: the notes dictionary built from the free-text notes field. */
  function ParseNotes(text: string): (notes: OMap<string>)
    ensures UniqueKeys(notes)
    ensures forall k :: HasKey(notes, k) <==> HasKey(NoteEntries(Split(text, '\n')), k)
  {
    PutAllKeys([], NoteEntries(Split(text, '\n')));
    PutAll([], NoteEntries(Split(text, '\n')))
  }

  /** Putting every entry keeps keys unique and adds exactly the entries' keys. */
  lemma {:induction false} PutAllKeys(m: OMap<string>, entries: seq<(string, string)>)
    requires UniqueKeys(m)
    ensures UniqueKeys(PutAll(m, entries))
    ensures forall k :: HasKey(PutAll(m, entries), k) <==> HasKey(m, k) || HasKey(entries, k)
    decreases |entries|
  {
    if |entries| > 0 {
      PutAllKeys(Put(m, entries[0].0, entries[0].1), entries[1..]);
      assert Keys(entries) == [entries[0].0] + Keys(entries[1..]);
    }
  }

  /** The value a key ends with is the one of its last entry; a key no entry names keeps its value. */
  lemma PutAllLastWins(m: OMap<string>, entries: seq<(string, string)>, k: string)
    requires UniqueKeys(m)
    ensures HasKey(entries, k) ==> var i := LastPosition(entries, k);
      HasKey(PutAll(m, entries), k) && Get(PutAll(m, entries), k) == entries[i].1
    ensures !HasKey(entries, k) && HasKey(m, k) ==> HasKey(PutAll(m, entries), k) && Get(PutAll(m, entries), k) == Get(m, k)
  {
    PutAllLast(m, entries, k);
    PutAllKeeps(m, entries, k);
  }

  lemma {:induction false} PutAllLast(m: OMap<string>, entries: seq<(string, string)>, k: string)
    requires UniqueKeys(m)
    ensures HasKey(entries, k) ==> var i := LastPosition(entries, k);
      HasKey(PutAll(m, entries), k) && Get(PutAll(m, entries), k) == entries[i].1
    decreases |entries|
  {
    if |entries| > 0 && HasKey(entries, k) {
      var m1 := Put(m, entries[0].0, entries[0].1);
      if HasKey(entries[1..], k) {
        PutAllLast(m1, entries[1..], k);
        LastPositionTail(entries, k);
      } else {
        assert Keys(entries) == [entries[0].0] + Keys(entries[1..]);
        PutAllKeeps(m1, entries[1..], k);
      }
    }
  }

  lemma {:induction false} PutAllKeeps(m: OMap<string>, entries: seq<(string, string)>, k: string)
    requires UniqueKeys(m)
    ensures !HasKey(entries, k) && HasKey(m, k) ==> HasKey(PutAll(m, entries), k) && Get(PutAll(m, entries), k) == Get(m, k)
    decreases |entries|
  {
    if |entries| > 0 && !HasKey(entries, k) {
      var m1 := Put(m, entries[0].0, entries[0].1);
      assert Keys(entries) == [entries[0].0] + Keys(entries[1..]);
      PutAllKeeps(m1, entries[1..], k);
    }
  }

  /** The index of the last entry for `k`. */
  function LastPosition(entries: seq<(string, string)>, k: string): (i: nat)
    requires HasKey(entries, k)
    ensures i < |entries| && entries[i].0 == k
    ensures forall j :: i < j < |entries| ==> entries[j].0 != k
  {
    if entries[|entries| - 1].0 == k then |entries| - 1
    else
      HasKeyBeforeLast(entries, k);
      var i := LastPosition(entries[..|entries| - 1], k);
      assert forall j :: i < j < |entries| - 1 ==> entries[..|entries| - 1][j] == entries[j];
      i
  }

  lemma LastPositionTail(entries: seq<(string, string)>, k: string)
    requires |entries| > 0 && HasKey(entries[1..], k)
    ensures HasKey(entries, k) && LastPosition(entries, k) == LastPosition(entries[1..], k) + 1
  {
    var j := LastPosition(entries[1..], k);
    assert entries[j + 1].0 == k;
    assert Keys(entries)[j + 1] == k;
    var i := LastPosition(entries, k);
    assert i >= j + 1;
    assert entries[1..][i - 1] == entries[i];
  }

  /** The keys of `ks` not in `seen`, each once, in order of first occurrence. */
  function FirstOccurrences(seen: seq<string>, ks: seq<string>): seq<string>
    decreases |ks|
  {
    if |ks| == 0 then []
    else if ks[0] in seen then FirstOccurrences(seen, ks[1..])
    else [ks[0]] + FirstOccurrences(seen + [ks[0]], ks[1..])
  }

  /** Putting entries keeps the existing keys in place and appends the new ones in order of their first entry. */
  lemma {:induction false} PutAllOrder(m: OMap<string>, entries: seq<(string, string)>)
    ensures Keys(PutAll(m, entries)) == Keys(m) + FirstOccurrences(Keys(m), Keys(entries))
    decreases |entries|
  {
    if |entries| == 0 {
      assert Keys(m) + [] == Keys(m);
    } else {
      var e := entries[0];
      var m1 := Put(m, e.0, e.1);
      assert PutAll(m, entries) == PutAll(m1, entries[1..]);
      PutAllOrder(m1, entries[1..]);
      PutKeys(m, e.0, e.1);
      assert Keys(entries) == [e.0] + Keys(entries[1..]);
      OrderStep(Keys(m), e.0, Keys(entries[1..]));
    }
  }

  lemma OrderStep(seen: seq<string>, k: string, rest: seq<string>)
    ensures var seen' := if k in seen then seen else seen + [k];
      seen' + FirstOccurrences(seen', rest) == seen + FirstOccurrences(seen, [k] + rest)
  {
    assert ([k] + rest)[1..] == rest;
    if k !in seen {
      assert seen + [k] + FirstOccurrences(seen + [k], rest) == seen + ([k] + FirstOccurrences(seen + [k], rest));
    }
  }

  /** Putting entries with fresh, distinct keys appends them in order. */
  lemma {:induction false} PutAllFresh(m: OMap<string>, entries: seq<(string, string)>)
    requires UniqueKeys(entries)
    requires forall i :: 0 <= i < |entries| ==> !HasKey(m, entries[i].0)
    ensures PutAll(m, entries) == m + entries
    decreases |entries|
  {
    if |entries| > 0 {
      var e := entries[0];
      PutAppends(m, e.0, e.1);
      FreshTail(m, entries);
      PutAllFresh(m + [e], entries[1..]);
      AppendHead(m, entries);
    }
  }

  lemma FreshTail(m: OMap<string>, entries: seq<(string, string)>)
    requires |entries| > 0 && UniqueKeys(entries)
    requires forall i :: 0 <= i < |entries| ==> !HasKey(m, entries[i].0)
    ensures UniqueKeys(entries[1..])
    ensures forall i :: 0 <= i < |entries[1..]| ==> !HasKey(m + [entries[0]], entries[1..][i].0)
  {
    var tail := entries[1..];
    var m1 := m + [entries[0]];
    assert Keys(m1) == Keys(m) + [entries[0].0];
    forall i | 0 <= i < |tail|
      ensures !HasKey(m1, tail[i].0)
    {
      assert tail[i] == entries[i + 1];
      assert !HasKey(m, entries[i + 1].0);
    }
    forall a, b | 0 <= a < b < |tail|
      ensures tail[a].0 != tail[b].0
    {
      assert tail[a] == entries[a + 1] && tail[b] == entries[b + 1];
    }
  }

  /**
   * The parsed notes' keys are unique and are exactly the stripped keys of the
   * lines holding ':', ordered by the first line naming each.
   */
  lemma ParsedNoteKeys(text: string)
    ensures UniqueKeys(ParseNotes(text))
    ensures forall k :: HasKey(ParseNotes(text), k) <==> HasKey(NoteEntries(Split(text, '\n')), k)
    ensures Keys(ParseNotes(text)) == FirstOccurrences([], Keys(NoteEntries(Split(text, '\n'))))
  {
    var entries := NoteEntries(Split(text, '\n'));
    PutAllKeys([], entries);
    PutAllOrder([], entries);
  }

  /** A key repeated on several lines keeps the value of its last line. */
  lemma ParsedNoteValue(text: string, k: string)
    requires HasKey(NoteEntries(Split(text, '\n')), k)
    ensures HasKey(ParseNotes(text), k)
    ensures Get(ParseNotes(text), k) == NoteEntries(Split(text, '\n'))[LastPosition(NoteEntries(Split(text, '\n')), k)].1
  {
    PutAllLastWins([], NoteEntries(Split(text, '\n')), k);
  }

  /** No parsed key or value spans two lines. */
  lemma ParsedNotesSingleLine(text: string)
    ensures forall i :: 0 <= i < |ParseNotes(text)| ==> '\n' !in ParseNotes(text)[i].0 && '\n' !in ParseNotes(text)[i].1
  {
    var entries := NoteEntries(Split(text, '\n'));
    var n := ParseNotes(text);
    PutAllKeys([], entries);
    forall i | 0 <= i < |n|
      ensures '\n' !in n[i].0 && '\n' !in n[i].1
    {
      var k := n[i].0;
      assert Keys(n)[i] == k;
      GetEntry(n, i);
      PutAllLastWins([], entries, k);
      var j := LastPosition(entries, k);
      assert '\n' !in entries[j].0 && '\n' !in entries[j].1;
    }
  }

  /** With no key repeated, the notes are the lines' pairs in line order. */
  lemma ParsedNotesDistinct(text: string)
    requires UniqueKeys(NoteEntries(Split(text, '\n')))
    ensures ParseNotes(text) == NoteEntries(Split(text, '\n'))
  {
    PutAllFresh([], NoteEntries(Split(text, '\n')));
  }

  /** Written notes come back unchanged: one "K:V" line per note, with keys and values already stripped and free of ':' in the key. */
  lemma {:induction false} NoteLineRoundTrip(k: string, v: string)
    requires ':' !in k && '\n' !in k && '\n' !in v
    requires Strip(k) == k && Strip(v) == v
    ensures ParseNoteLine(k + ":" + v) == Some((k, v))
  {
    assert k + ":" + v == k + [':'] + v;
    ParseNoteLineAt(k, v);
  }

  /** A line splits at its first ':'. */
  lemma ParseNoteLineAt(k: string, v: string)
    requires ':' !in k
    ensures ParseNoteLine(k + [':'] + v) == Some((Strip(k), Strip(v)))
  {
    var line := k + [':'] + v;
    assert line[|k|] == ':';
    IndexOfAfter(k, ':', v);
    assert line[..|k|] == k;
    assert line[|k| + 1..] == v;
  }

  // ---------------------------------------------------------------------------
  // /addserver
  // ---------------------------------------------------------------------------

  /** The five fields of the "Add Server" form, as typed. */
  datatype AddForm = AddForm(ip: string, port: string, name: string, country: string, notes: string)

  /** Lines 88-92 of main.py: `int()` of the port text, or -1 when it does not parse. */
  function ParsePort(text: string): (p: int)
    ensures ParseInt(text).None? ==> p == -1
    ensures ParseInt(text).Some? ==> p == ParseInt(text).value
  {
    match ParseInt(text)
    case Some(n) => n
    case None => -1
  }

  /** A port that passes validation is exactly the number typed; any written-out port reads back as itself. */
  lemma ParsedPort(text: string, port: int)
    ensures ValidatePort(ParsePort(text)) ==> ParseInt(text) == Some(ParsePort(text))
    ensures ParsePort(IntToString(port)) == port
  {
    ParseIntToString(port);
  }

  /** A port typed after an ASCII separator is not a number to `int()`, so it stays -1 and fails validation. */
  lemma SeparatorPortIsInvalid()
    ensures ParsePort("\U{1C}27015") == -1 && !ValidatePort(ParsePort("\U{1C}27015"))
  {
  }

  /** One reason the form is refused, in the order lines 102-109 of main.py check them. */
  datatype Problem =
    | InvalidIp(ip: string)
    | InvalidPort(port: int)
    | InvalidCountry(country: string)
    | AlreadyListed(key: string)

  /** The server record built from the form (lines 94-98 of main.py): the country is lower-cased. */
  function FormServer(form: AddForm): (s: Server)
    ensures s.name == form.name && s.country == Lower(form.country) && s.notes == ParseNotes(form.notes)
  {
    Server(form.name, Lower(form.country), ParseNotes(form.notes))
  }

  /** The key the form's server is registered under (lines 108 and 114 of main.py). */
  function FormKey(form: AddForm): string {
    EndpointKey(form.ip, ParsePort(form.port))
  }

  /**
   * Lines 100-109 of main.py: every failed check, all of them, in check order, for the
   * address, the parsed port and the lower-cased country typed, `listed`
   * telling whether their key is already configured.
   */
  function Problems(ip: string, port: int, country: string, key: string, listed: bool,
                    parsesAsIp: string -> bool, inIsoTable: string -> bool): (ps: seq<Problem>)
    ensures |ps| <= 4
    ensures |ps| == 0 <==> parsesAsIp(ip) && MinPort <= port <= MaxPort && ValidateCountry(country, inIsoTable) && !listed
  {
    (if ValidateIp(ip, parsesAsIp) then [] else [InvalidIp(ip)])
    + (if ValidatePort(port) then [] else [InvalidPort(port)])
    + (if ValidateCountry(country, inIsoTable) then [] else [InvalidCountry(country)])
    + (if listed then [AlreadyListed(key)] else [])
  }

  /** Every check is reported on its own: a problem is listed exactly when its check fails. */
  lemma {:induction false} ProblemsReported(ip: string, port: int, country: string, key: string, listed: bool,
                                            parsesAsIp: string -> bool, inIsoTable: string -> bool)
    ensures var ps := Problems(ip, port, country, key, listed, parsesAsIp, inIsoTable);
      && (InvalidIp(ip) in ps <==> !parsesAsIp(ip))
      && (InvalidPort(port) in ps <==> !(MinPort <= port <= MaxPort))
      && (InvalidCountry(country) in ps <==> |country| != 2 || !inIsoTable(country))
      && (AlreadyListed(key) in ps <==> listed)
  {
    var a := if ValidateIp(ip, parsesAsIp) then [] else [InvalidIp(ip)];
    var b := if ValidatePort(port) then [] else [InvalidPort(port)];
    var c := if ValidateCountry(country, inIsoTable) then [] else [InvalidCountry(country)];
    var d := if listed then [AlreadyListed(key)] else [];
    var ps := Problems(ip, port, country, key, listed, parsesAsIp, inIsoTable);
    assert ps == a + b + c + d;
  }

  /** The problems `/addserver` finds with a form. */
  function FormProblems(form: AddForm, servers: OMap<Server>, parsesAsIp: string -> bool, inIsoTable: string -> bool): seq<Problem> {
    Problems(form.ip, ParsePort(form.port), Lower(form.country), FormKey(form), HasKey(servers, FormKey(form)), parsesAsIp, inIsoTable)
  }

  /** What `/addserver` answers: success, or the refusal listing the problems. */
  datatype AddReply = Added | Refused(problems: seq<Problem>)

  /** The state after `/addserver` and its reply. */
  datatype Outcome = Outcome(state: State, reply: AddReply)

  /**
   * Lines 79-117 of main.py: parse the form, run every check, and either refuse
   * with the full list of problems, leaving everything as it was, or append the
   * server under "ip:port" and write the document once.
   */
  function AddServer(st: State, form: AddForm, parsesAsIp: string -> bool, inIsoTable: string -> bool): (o: Outcome)
    requires WellFormed(st)
    ensures WellFormed(o.state)
    ensures o.reply == Added <==> FormProblems(form, st.config.servers, parsesAsIp, inIsoTable) == []
    ensures o.reply.Refused? ==> o.state == st && o.reply.problems == FormProblems(form, st.config.servers, parsesAsIp, inIsoTable)
    ensures o.reply == Added ==>
      && !HasKey(st.config.servers, FormKey(form))
      && o.state.config.servers == st.config.servers + [(FormKey(form), FormServer(form))]
      && o.state.config.activeMessages == st.config.activeMessages
      && o.state.serverData == st.serverData && o.state.cachedMessages == st.cachedMessages
      && o.state.writes == st.writes + [o.state.config]
  {
    var ps := FormProblems(form, st.config.servers, parsesAsIp, inIsoTable);
    if |ps| > 0 then Outcome(st, Refused(ps))
    else
      var key := FormKey(form);
      PutAppends(st.config.servers, key, FormServer(form));
      var servers := Put(st.config.servers, key, FormServer(form));
      Outcome(WriteConfig(st.(config := st.config.(servers := servers))), Added)
  }

  // ---------------------------------------------------------------------------
  // /removeserver
  // ---------------------------------------------------------------------------

  /** The servers left and the `KeyError` that stopped the deletions, if any. */
  datatype Deletion = Deletion(remaining: OMap<Server>, failure: Option<Failure>)

  /** Lines 153-154 of main.py: `del` each selected key in turn; a key no longer present raises. */
  function DeleteAll(servers: OMap<Server>, selected: seq<string>): (r: Deletion)
    ensures |r.remaining| <= |servers|
    ensures forall k :: HasKey(r.remaining, k) ==> HasKey(servers, k)
    ensures r.failure.Some? ==> r.failure.value.MissingServer? && !HasKey(r.remaining, r.failure.value.key)
    decreases |selected|
  {
    if |selected| == 0 then Deletion(servers, None)
    else if !HasKey(servers, selected[0]) then Deletion(servers, Some(MissingServer(selected[0])))
    else DeleteAll(Without(servers, [selected[0]]), selected[1..])
  }

  /** Whether each selected key is present when its turn comes: present at the start and not selected before. */
  predicate Deletable(servers: OMap<Server>, selected: seq<string>) {
    && (forall i :: 0 <= i < |selected| ==> HasKey(servers, selected[i]))
    && Distinct(selected)
  }

  /** The deletions succeed exactly when every selected key is deletable, and then leave the servers without the selected keys. */
  lemma DeleteAllSucceeds(servers: OMap<Server>, selected: seq<string>)
    ensures DeleteAll(servers, selected).failure.None? <==> Deletable(servers, selected)
    ensures DeleteAll(servers, selected).failure.None? ==> DeleteAll(servers, selected).remaining == Without(servers, selected)
  {
    DeleteAllSucceedsIff(servers, selected);
    DeleteAllRemovesAll(servers, selected);
  }

  lemma {:induction false} DeleteAllSucceedsIff(servers: OMap<Server>, selected: seq<string>)
    ensures DeleteAll(servers, selected).failure.None? <==> Deletable(servers, selected)
    decreases |selected|
  {
    if |selected| > 0 && HasKey(servers, selected[0]) {
      DeleteAllSucceedsIff(Without(servers, [selected[0]]), selected[1..]);
      DeletableStep(servers, selected);
    }
  }

  lemma {:induction false} DeleteAllRemovesAll(servers: OMap<Server>, selected: seq<string>)
    ensures DeleteAll(servers, selected).failure.None? ==> DeleteAll(servers, selected).remaining == Without(servers, selected)
    decreases |selected|
  {
    if |selected| == 0 {
      WithoutAbsent(servers, selected);
    } else if HasKey(servers, selected[0]) {
      var g := selected[0];
      DeleteAllRemovesAll(Without(servers, [g]), selected[1..]);
      WithoutWithout(servers, [g], selected[1..]);
      assert [g] + selected[1..] == selected;
    }
  }

  /** How many selected keys get deleted before the loop stops. */
  function DeletedCount(servers: OMap<Server>, selected: seq<string>): (n: nat)
    ensures n <= |selected|
    decreases |selected|
  {
    if |selected| == 0 || !HasKey(servers, selected[0]) then 0
    else 1 + DeletedCount(Without(servers, [selected[0]]), selected[1..])
  }

  /** The loop deletes a prefix of the selection; a failure names the first key it found missing. */
  lemma DeleteAllStops(servers: OMap<Server>, selected: seq<string>)
    ensures var n := DeletedCount(servers, selected);
      && DeleteAll(servers, selected).remaining == Without(servers, selected[..n])
      && (DeleteAll(servers, selected).failure.Some? <==> n < |selected|)
      && (n < |selected| ==> DeleteAll(servers, selected).failure == Some(MissingServer(selected[n]))
                             && !HasKey(Without(servers, selected[..n]), selected[n]))
  {
    DeleteAllRemaining(servers, selected);
    DeleteAllFailure(servers, selected);
  }

  lemma {:induction false} DeleteAllRemaining(servers: OMap<Server>, selected: seq<string>)
    ensures DeleteAll(servers, selected).remaining == Without(servers, selected[..DeletedCount(servers, selected)])
    decreases |selected|
  {
    if |selected| == 0 || !HasKey(servers, selected[0]) {
      assert selected[..0] == [];
      WithoutAbsent(servers, []);
    } else {
      var g := selected[0];
      var tail := selected[1..];
      DeleteAllRemaining(Without(servers, [g]), tail);
      var rest := Without(servers, [g]);
      var k := DeletedCount(rest, tail);
      WithoutWithout(servers, [g], tail[..k]);
      PrefixCons(selected, k);
      assert Without(rest, tail[..k]) == Without(servers, selected[..k + 1]);
    }
  }

  lemma DeleteAllFailure(servers: OMap<Server>, selected: seq<string>)
    ensures var n := DeletedCount(servers, selected);
      && (DeleteAll(servers, selected).failure.Some? <==> n < |selected|)
      && (n < |selected| ==> DeleteAll(servers, selected).failure == Some(MissingServer(selected[n]))
                             && !HasKey(DeleteAll(servers, selected).remaining, selected[n]))
  {
    DeleteAllFails(servers, selected);
    DeleteAllNamesMissing(servers, selected);
  }

  lemma {:induction false} DeleteAllFails(servers: OMap<Server>, selected: seq<string>)
    ensures DeleteAll(servers, selected).failure.Some? <==> DeletedCount(servers, selected) < |selected|
    decreases |selected|
  {
    if |selected| > 0 && HasKey(servers, selected[0]) {
      DeleteAllFails(Without(servers, [selected[0]]), selected[1..]);
    }
  }

  lemma DeleteAllNamesMissing(servers: OMap<Server>, selected: seq<string>)
    ensures var n := DeletedCount(servers, selected);
      n < |selected| ==> DeleteAll(servers, selected).failure == Some(MissingServer(selected[n]))
                         && !HasKey(DeleteAll(servers, selected).remaining, selected[n])
  {
    DeleteAllNamesKey(servers, selected);
    DeleteAllLeavesKeyOut(servers, selected);
  }

  lemma {:induction false} DeleteAllNamesKey(servers: OMap<Server>, selected: seq<string>)
    ensures var n := DeletedCount(servers, selected);
      n < |selected| ==> DeleteAll(servers, selected).failure == Some(MissingServer(selected[n]))
    decreases |selected|
  {
    if |selected| > 0 && HasKey(servers, selected[0]) {
      var rest := Without(servers, [selected[0]]);
      var tail := selected[1..];
      DeleteAllNamesKey(rest, tail);
      var k := DeletedCount(rest, tail);
      if k < |tail| {
        TailIndex(selected, k);
      }
    }
  }

  lemma {:induction false} DeleteAllLeavesKeyOut(servers: OMap<Server>, selected: seq<string>)
    ensures var n := DeletedCount(servers, selected);
      n < |selected| ==> !HasKey(DeleteAll(servers, selected).remaining, selected[n])
    decreases |selected|
  {
    if |selected| > 0 && HasKey(servers, selected[0]) {
      var rest := Without(servers, [selected[0]]);
      var tail := selected[1..];
      DeleteAllLeavesKeyOut(rest, tail);
      var k := DeletedCount(rest, tail);
      if k < |tail| {
        TailIndex(selected, k);
      }
    }
  }

  /** Past a present first key, the rest of the selection is deletable from what is left exactly when the whole selection was. */
  lemma DeletableStep(servers: OMap<Server>, selected: seq<string>)
    requires |selected| > 0 && HasKey(servers, selected[0])
    ensures Deletable(servers, selected) <==> Deletable(Without(servers, [selected[0]]), selected[1..])
  {
    if Deletable(servers, selected) {
      DeletableTail(servers, selected);
    }
    if Deletable(Without(servers, [selected[0]]), selected[1..]) {
      DeletableCons(servers, selected);
    }
  }

  lemma DeletableTail(servers: OMap<Server>, selected: seq<string>)
    requires |selected| > 0 && Deletable(servers, selected)
    ensures Deletable(Without(servers, [selected[0]]), selected[1..])
  {
    var tail := selected[1..];
    DistinctCons(selected);
    forall i | 0 <= i < |tail|
      ensures HasKey(Without(servers, [selected[0]]), tail[i])
    {
      TailIndex(selected, i);
    }
  }

  lemma DeletableCons(servers: OMap<Server>, selected: seq<string>)
    requires |selected| > 0 && HasKey(servers, selected[0])
    requires Deletable(Without(servers, [selected[0]]), selected[1..])
    ensures Deletable(servers, selected)
  {
    forall i | 0 < i < |selected|
      ensures HasKey(servers, selected[i])
    {
      TailIndex(selected, i - 1);
    }
    DistinctCons(selected);
  }

  /** The state after `/removeserver` and the exception that escaped the handler, if any. */
  datatype Removal = Removal(state: State, reply: string, failure: Option<Failure>)

  const NoServersReply := "No available servers - add one with /addserver"
  const RemovedReply := "Servers removed successfully"

  /**
   * Lines 127-156 of main.py: with no servers configured nothing happens;
   * otherwise the selected keys are deleted in turn and the document is written
   * once. A `KeyError` escapes before the write, keeping the deletions made.
   */
  function RemoveServers(st: State, selected: seq<string>): (r: Removal)
    requires WellFormed(st)
    ensures r.state.config.activeMessages == st.config.activeMessages
    ensures r.state.serverData == st.serverData && r.state.cachedMessages == st.cachedMessages
    ensures r.failure.Some? ==> r.state.writes == st.writes && r.failure.value.MissingServer?
    ensures r.failure.None? ==> r.state.writes == st.writes + [r.state.config] || r.state == st
  {
    if |st.config.servers| == 0 then Removal(st, NoServersReply, None)
    else
      var d := DeleteAll(st.config.servers, selected);
      var st1 := st.(config := st.config.(servers := d.remaining));
      if d.failure.Some? then Removal(st1, "", d.failure)
      else Removal(WriteConfig(st1), RemovedReply, None)
  }

  /**
   * What `/removeserver` guarantees: the watch groups, the status cache and the
   * handle cache are never touched; with servers configured, a selection whose
   * keys are all present removes exactly them and writes once, and any other
   * selection writes nothing.
   */
  lemma RemovedServers(st: State, selected: seq<string>)
    requires WellFormed(st)
    ensures var r := RemoveServers(st, selected);
      && r.state.config.activeMessages == st.config.activeMessages
      && r.state.serverData == st.serverData && r.state.cachedMessages == st.cachedMessages
      && UniqueKeys(r.state.config.servers)
    ensures |st.config.servers| == 0 ==> RemoveServers(st, selected).state == st
    ensures |st.config.servers| > 0 ==>
      (RemoveServers(st, selected).failure.None? <==> Deletable(st.config.servers, selected))
    ensures |st.config.servers| > 0 && Deletable(st.config.servers, selected) ==>
      && RemoveServers(st, selected).state.config.servers == Without(st.config.servers, selected)
      && RemoveServers(st, selected).state.writes == st.writes + [RemoveServers(st, selected).state.config]
    ensures RemoveServers(st, selected).failure.Some? ==>
      && RemoveServers(st, selected).state.writes == st.writes
      && DeletedCount(st.config.servers, selected) < |selected|
      && RemoveServers(st, selected).state.config.servers == Without(st.config.servers, selected[..DeletedCount(st.config.servers, selected)])
      && RemoveServers(st, selected).failure == Some(MissingServer(selected[DeletedCount(st.config.servers, selected)]))
  {
    if |st.config.servers| > 0 {
      DeleteAllSucceeds(st.config.servers, selected);
      DeleteAllStops(st.config.servers, selected);
      var d := DeleteAll(st.config.servers, selected);
      if d.failure.None? {
        WithoutUnique(st.config.servers, selected);
      } else {
        WithoutUnique(st.config.servers, selected[..DeletedCount(st.config.servers, selected)]);
      }
    }
  }

  /** Adding a server and then removing it restores the servers, and the removal writes the restored document. */
  lemma AddThenRemove(st: State, form: AddForm, parsesAsIp: string -> bool, inIsoTable: string -> bool)
    requires WellFormed(st)
    requires AddServer(st, form, parsesAsIp, inIsoTable).reply == Added
    ensures var added := AddServer(st, form, parsesAsIp, inIsoTable).state;
      var r := RemoveServers(added, [FormKey(form)]);
      r.failure.None? && r.state.config == st.config
  {
    var added := AddServer(st, form, parsesAsIp, inIsoTable).state;
    var key := FormKey(form);
    var m := st.config.servers;
    assert added.config.servers == m + [(key, FormServer(form))];
    assert added.config.activeMessages == st.config.activeMessages;
    RemoveAppended(m, key, FormServer(form));
    DeletableSingle(added.config.servers, key);
    RemoveDeletable(added, [key]);
    var r := RemoveServers(added, [key]);
    assert r.state.config.servers == st.config.servers;
    assert r.state.config.activeMessages == st.config.activeMessages;
  }

  lemma DeletableSingle(servers: OMap<Server>, key: string)
    requires HasKey(servers, key)
    ensures Deletable(servers, [key])
  {
  }

  /** When every selected key is deletable, the removal succeeds and only the server list changes. */
  lemma RemoveDeletable(st: State, selected: seq<string>)
    requires WellFormed(st) && |st.config.servers| > 0 && Deletable(st.config.servers, selected)
    ensures var r := RemoveServers(st, selected);
      r.failure.None? && r.state.config == st.config.(servers := Without(st.config.servers, selected))
  {
    DeleteAllSucceeds(st.config.servers, selected);
  }

  /**
   * An IPv6 address passes validation (the address check accepts it) and is
   * registered, but its key holds more than one ':', so every later poll of
   * the server list ends with an exception.
   */
  lemma ColonAddressIsAcceptedButBreaksPolling(st: State, form: AddForm, parsesAsIp: string -> bool, inIsoTable: string -> bool,
                                               query: (string, int) -> QueryOutcome)
    requires WellFormed(st) && ':' in form.ip
    requires AddServer(st, form, parsesAsIp, inIsoTable).reply == Added
    ensures PollServers(AddServer(st, form, parsesAsIp, inIsoTable).state.config.servers, st.serverData, query).failure.Some?
  {
    var added := AddServer(st, form, parsesAsIp, inIsoTable).state;
    assert Keys(added.config.servers)[|st.config.servers|] == FormKey(form);
    ColonAddressBreaksPolling(added.config.servers, st.serverData, query, form.ip, ParsePort(form.port));
  }

  /** A server removed while a group still lists it is shown as "not in config" in that group's next display. */
  lemma RemovedServerRendersAsPlaceholder(st: State, selected: seq<string>, keys: seq<string>, summary: string, i: nat)
    requires WellFormed(st) && |st.config.servers| > 0 && Deletable(st.config.servers, selected)
    requires i < |keys| && keys[i] in selected
    ensures GenerateEmbed(keys, RemoveServers(st, selected).state.config.servers, st.serverData, summary).fields[i] == PlaceholderField(keys[i])
  {
    RemovedServers(st, selected);
    RenderedField(keys, RemoveServers(st, selected).state.config.servers, st.serverData, summary, i);
  }

  // ---------------------------------------------------------------------------
  // /monitor
  // ---------------------------------------------------------------------------

  /** The menu interaction `/monitor` waits for: the chosen keys, where the menu message lives, and its handle. */
  datatype Selection = Selection(values: seq<string>, channelId: nat, messageId: nat, handle: MessageHandle)

  /** Line 225 of main.py: the group key "channel_id:message_id". */
  function GroupKey(channelId: nat, messageId: nat): string {
    NatToString(channelId) + ":" + NatToString(messageId)
  }

  /** A group key splits back into its two ids. */
  lemma GroupKeySplits(channelId: nat, messageId: nat)
    ensures Split(GroupKey(channelId, messageId), ':') == [NatToString(channelId), NatToString(messageId)]
  {
    var c := NatToString(channelId);
    var m := NatToString(messageId);
    DigitsHaveNo(c, ':');
    DigitsHaveNo(m, ':');
    SplitPair(c, m, ':');
    assert c + ":" + m == c + [':'] + m;
  }

  /** The state after `/monitor` and the display it put on the menu message, if it got that far. */
  datatype Registration = Registration(state: State, shown: Option<Embed>)

  /**
   * Lines 193-233 of main.py: with servers configured and a selection made in
   * time, the chosen keys become a watch group under "channel:message", the
   * menu message's handle is cached, the message shows the group's display and
   * the document is written once. `summary` is the summary text of that display.
   */
  function MonitorGroup(st: State, selection: Option<Selection>, summary: string): (r: Registration)
    requires WellFormed(st)
    ensures r.shown.Some? <==> |st.config.servers| > 0 && selection.Some?
    ensures r.shown.None? ==> r.state == st
  {
    if |st.config.servers| == 0 || selection.None? then Registration(st, None)
    else
      var s := selection.value;
      var g := GroupKey(s.channelId, s.messageId);
      var st1 := st.(config := st.config.(activeMessages := Put(st.config.activeMessages, g, s.values)),
                     cachedMessages := st.cachedMessages[g := s.handle]);
      var shown := GenerateEmbed(s.values, st.config.servers, st.serverData, summary);
      Registration(WriteConfig(st1), Some(shown))
  }

  /**
   * A registration adds (or overwrites) exactly one watch group, leaves the
   * others and the servers as they were, caches the menu message's handle,
   * and writes the document once.
   */
  lemma MonitorGroupRegisters(st: State, s: Selection, summary: string)
    requires WellFormed(st) && |st.config.servers| > 0
    ensures var r := MonitorGroup(st, Some(s), summary); var g := GroupKey(s.channelId, s.messageId);
      && WellFormed(r.state)
      && r.state.config.servers == st.config.servers
      && HasKey(r.state.config.activeMessages, g) && Get(r.state.config.activeMessages, g) == s.values
      && (forall k :: k != g ==> (HasKey(r.state.config.activeMessages, k) <==> HasKey(st.config.activeMessages, k)))
      && (forall k :: k != g && HasKey(st.config.activeMessages, k) ==> Get(r.state.config.activeMessages, k) == Get(st.config.activeMessages, k))
      && r.state.cachedMessages == st.cachedMessages[g := s.handle]
      && r.state.serverData == st.serverData
      && r.state.writes == st.writes + [r.state.config]
  {
  }

  /** The display shown on registration lists the chosen servers in the order chosen, rendered from the current status cache, then the summary. */
  lemma MonitorGroupShows(st: State, s: Selection, summary: string)
    requires WellFormed(st) && |st.config.servers| > 0
    ensures var e := MonitorGroup(st, Some(s), summary).shown.value;
      && |e.fields| == |s.values| + 1
      && (forall i :: 0 <= i < |s.values| ==> e.fields[i] == ServerField(s.values[i], st.config.servers, st.serverData))
      && e.fields[|s.values|] == SummaryField(summary)
  {
  }

  /**
   * A group registered by `/monitor` has its handle cached, so the next cycle
   * never resolves it; were the cache lost, its key would still resolve through
   * the two ids it was built from.
   */
  lemma RegisteredGroupResolves(channelId: nat, messageId: nat, fetch: (string, string) -> Option<MessageHandle>)
    ensures Resolve(GroupKey(channelId, messageId), fetch).Resolved?
      <==> fetch(NatToString(channelId), NatToString(messageId)).Some?
  {
    GroupKeySplits(channelId, messageId);
  }
}

=== FILE: renderer.dfy ===
/**
 * `generate_embed` (monitoring.py): the status display for a watch group. One
 * field per requested endpoint key, in the requested order, then a summary
 * field whose clock-dependent text is supplied by the caller.
 */
module Renderer {
  import opened Wrappers
  import opened OrderedMap
  import opened Text
  import opened Model
  import opened Seqs

  datatype Field = Field(name: string, value: string)
  datatype Embed = Embed(title: string, description: string, fields: seq<Field>)

  const ZeroWidthSpace := "\U{200B}"
  const EmbedTitle := ":computer: Server Status"
  const NotInConfig := "Server not in config!"
  const OfflineMarker := " **[OFFLINE]**"

  /** The field for a key that is not configured. */
  function PlaceholderField(key: string): Field {
    Field(":grey_question: " + key, NotInConfig)
  }

  function FlagEmoji(country: string): string {
    ":flag_" + country + ":"
  }

  function JoinLink(key: string): string {
    "**IP:** " + key
  }

  /** One rendered note, without its leading line break. */
  function NoteLine(note: (string, string)): string {
    "**" + note.0 + ":** " + note.1
  }

  function NoteLines(notes: OMap<string>): (lines: seq<string>)
    ensures |lines| == |notes|
    ensures forall i :: 0 <= i < |notes| ==> lines[i] == NoteLine(notes[i])
  {
    if |notes| == 0 then [] else [NoteLine(notes[0])] + NoteLines(notes[1..])
  }

  /** The notes block appended to every configured endpoint's body. */
  function NotesText(notes: OMap<string>): string {
    if |notes| == 0 then "" else "\n" + NoteLine(notes[0]) + NotesText(notes[1..])
  }

  /** The start of an offline body. */
  function OfflineBody(key: string): string {
    JoinLink(key) + "\n" + "**Player count:** N/A\n" + "**Map:** N/A"
  }

  /** The start of an online body. */
  function OnlineBody(key: string, info: SourceInfo): string {
    JoinLink(key) + "\n"
    + "**Player count:** " + IntToString(info.playerCount) + "/" + IntToString(info.maxPlayers) + "\n"
    + "**Map:** " + info.mapName
  }

  /** The cache holds a status for `key` whose server name is not `None`. */
  predicate IsOnline(key: string, cache: map<string, SourceInfo>) {
    key in cache && cache[key].serverName.Some?
  }

  function ServerField(key: string, servers: OMap<Server>, cache: map<string, SourceInfo>): Field {
    if !HasKey(servers, key) then PlaceholderField(key)
    else
      var server := Get(servers, key);
      var flag := FlagEmoji(server.country);
      var notes := NotesText(server.notes);
      if IsOnline(key, cache) then
        Field(flag + " " + cache[key].serverName.value, OnlineBody(key, cache[key]) + notes)
      else
        Field(flag + " " + server.name + OfflineMarker, OfflineBody(key) + notes)
  }

  function SummaryField(summary: string): Field {
    Field(ZeroWidthSpace, summary)
  }

  /** `generate_embed(keys, query_time)`; `summary` stands for the clock-dependent last field's text. */
  function GenerateEmbed(keys: seq<string>, servers: OMap<Server>, cache: map<string, SourceInfo>, summary: string): (e: Embed)
    ensures |e.fields| == |keys| + 1
    ensures e.fields[|keys|] == SummaryField(summary)
    ensures forall i :: 0 <= i < |keys| ==> e.fields[i] == ServerField(keys[i], servers, cache)
  {
    var fields := seq(|keys|, i requires 0 <= i < |keys| => ServerField(keys[i], servers, cache));
    Embed(EmbedTitle, ZeroWidthSpace + "\n", fields + [SummaryField(summary)])
  }

  predicate EndsWith(s: string, suffix: string) {
    |suffix| <= |s| && s[|s| - |suffix|..] == suffix
  }

  /** An online body never starts like an offline one: a printed count never begins with 'N'. */
  lemma OnlineIsNotOffline(key: string, info: SourceInfo, notes: string)
    ensures !(OfflineBody(key) <= OnlineBody(key, info) + notes)
  {
    var pre := JoinLink(key) + "\n" + "**Player count:** ";
    var count := IntToString(info.playerCount);
    assert OfflineBody(key) == pre + "N/A\n**Map:** N/A";
    assert OnlineBody(key, info) + notes == pre + (count + "/" + IntToString(info.maxPlayers) + "\n" + "**Map:** " + info.mapName + notes);
    assert OfflineBody(key)[|pre|] == 'N';
    assert (OnlineBody(key, info) + notes)[|pre|] == count[0];
  }

  /**
   * The classification of every endpoint field of a rendered group:
   * the placeholder exactly for keys that are not configured (whatever the cache
   * holds), the offline body exactly for configured keys without an online
   * status, and otherwise the online title and counts; every configured body
   * starts with the key and ends with the endpoint's notes.
   */
  lemma RenderedField(keys: seq<string>, servers: OMap<Server>, cache: map<string, SourceInfo>, summary: string, i: nat)
    requires i < |keys|
    ensures var f := GenerateEmbed(keys, servers, cache, summary).fields[i];
      && (f == PlaceholderField(keys[i]) <==> !HasKey(servers, keys[i]))
      && (HasKey(servers, keys[i]) ==>
            var server := Get(servers, keys[i]);
            && JoinLink(keys[i]) <= f.value
            && EndsWith(f.value, NotesText(server.notes))
            && (OfflineBody(keys[i]) <= f.value <==> !IsOnline(keys[i], cache))
            && (!IsOnline(keys[i], cache) ==> f.name == FlagEmoji(server.country) + " " + server.name + OfflineMarker)
            && (IsOnline(keys[i], cache) ==>
                  && f.name == FlagEmoji(server.country) + " " + cache[keys[i]].serverName.value
                  && OnlineBody(keys[i], cache[keys[i]]) <= f.value))
  {
    var key := keys[i];
    if HasKey(servers, key) {
      if IsOnline(key, cache) {
        OnlineField(key, servers, cache);
      } else {
        OfflineField(key, servers, cache);
      }
    }
  }

  /** A configured key with an online status gets the queried name and the counts. */
  lemma OnlineField(key: string, servers: OMap<Server>, cache: map<string, SourceInfo>)
    requires HasKey(servers, key) && IsOnline(key, cache)
    ensures var f := ServerField(key, servers, cache);
      var server := Get(servers, key);
      && f != PlaceholderField(key)
      && f.name == FlagEmoji(server.country) + " " + cache[key].serverName.value
      && OnlineBody(key, cache[key]) <= f.value
      && JoinLink(key) <= f.value
      && !(OfflineBody(key) <= f.value)
      && EndsWith(f.value, NotesText(server.notes))
  {
    var notes := NotesText(Get(servers, key).notes);
    var body := OnlineBody(key, cache[key]);
    OnlineFieldShape(key, servers, cache);
    OnlineIsNotOffline(key, cache[key], notes);
    OnlineBodyStart(key, cache[key]);
    PrefixOfAppend(body, notes);
    PrefixTrans(JoinLink(key), body, body + notes);
    assert (body + notes)[0] == body[0];
  }

  /** An online body starts with the join link, hence with '*'. */
  lemma OnlineBodyStart(key: string, info: SourceInfo)
    ensures JoinLink(key) <= OnlineBody(key, info) && OnlineBody(key, info)[0] == '*'
  {
    var rest := "\n" + "**Player count:** " + IntToString(info.playerCount) + "/" + IntToString(info.maxPlayers) + "\n" + "**Map:** " + info.mapName;
    assert OnlineBody(key, info) == JoinLink(key) + rest;
    PrefixOfAppend(JoinLink(key), rest);
    assert JoinLink(key)[0] == '*';
  }

  /** The online branch of `ServerField`, spelt out once so the lemma above works on plain strings. */
  lemma OnlineFieldShape(key: string, servers: OMap<Server>, cache: map<string, SourceInfo>)
    requires HasKey(servers, key) && IsOnline(key, cache)
    ensures var server := Get(servers, key);
      ServerField(key, servers, cache)
      == Field(FlagEmoji(server.country) + " " + cache[key].serverName.value, OnlineBody(key, cache[key]) + NotesText(server.notes))
  {
  }

  /** A status whose server name is the empty string is shown online, under a title that is the flag alone. */
  lemma EmptyNameRendersOnline(key: string, servers: OMap<Server>, cache: map<string, SourceInfo>)
    requires HasKey(servers, key) && key in cache && cache[key].serverName == Some("")
    ensures var f := ServerField(key, servers, cache);
      && f.name == FlagEmoji(Get(servers, key).country) + " "
      && !(OfflineBody(key) <= f.value)
  {
    OnlineField(key, servers, cache);
  }

  /** A configured key without an online status gets its configured name, the OFFLINE marker and the placeholder counts. */
  lemma OfflineField(key: string, servers: OMap<Server>, cache: map<string, SourceInfo>)
    requires HasKey(servers, key) && !IsOnline(key, cache)
    ensures var f := ServerField(key, servers, cache);
      var server := Get(servers, key);
      && f != PlaceholderField(key)
      && f.name == FlagEmoji(server.country) + " " + server.name + OfflineMarker
      && OfflineBody(key) <= f.value
      && JoinLink(key) <= f.value
      && EndsWith(f.value, NotesText(server.notes))
  {
    var notes := NotesText(Get(servers, key).notes);
    var body := OfflineBody(key);
    var f := ServerField(key, servers, cache);
    assert f.value == body + notes;
    PrefixOfAppend(body, notes);
    assert JoinLink(key) <= body;
    PrefixTrans(JoinLink(key), body, f.value);
    assert f.value[0] == '*';
  }

  lemma PrefixTrans(a: string, b: string, c: string)
    requires a <= b && b <= c
    ensures a <= c
  {
    assert c[..|a|] == b[..|a|];
  }

  /** A string is a prefix of itself followed by anything, and the rest is a suffix. */
  lemma PrefixOfAppend(a: string, b: string)
    ensures a <= a + b && EndsWith(a + b, b)
  {
    assert (a + b)[..|a|] == a;
    assert (a + b)[|a|..] == b;
  }

  lemma JoinAfterEmpty(lines: seq<string>)
    requires |lines| >= 1
    ensures Join([""] + lines, '\n') == "\n" + Join(lines, '\n')
  {
    assert ([""] + lines)[1..] == lines;
  }

  /** The notes block is an empty first line followed by one line per note, in the notes' order. */
  lemma {:induction false} NotesTextIsJoin(notes: OMap<string>)
    ensures NotesText(notes) == Join([""] + NoteLines(notes), '\n')
  {
    if |notes| > 0 {
      var rest := notes[1..];
      var lines := NoteLines(notes);
      var line := NoteLine(notes[0]);
      NotesTextIsJoin(rest);
      JoinAfterEmpty(lines);
      assert NotesText(notes) == "\n" + line + NotesText(rest);
      if |rest| == 0 {
        assert lines == [line];
      } else {
        var tail := Join(NoteLines(rest), '\n');
        assert lines[1..] == NoteLines(rest);
        assert Join(lines, '\n') == line + "\n" + tail;
        JoinAfterEmpty(NoteLines(rest));
        assert NotesText(rest) == "\n" + tail;
        Regroup("\n", line, "\n", tail);
      }
    }
  }

  lemma NoteLineHasNoBreak(note: (string, string))
    requires '\n' !in note.0 && '\n' !in note.1
    ensures '\n' !in NoteLine(note)
  {
    var line := NoteLine(note);
    forall j | 0 <= j < |line|
      ensures line[j] != '\n'
    {
      if 2 <= j < 2 + |note.0| {
        assert line[j] == note.0[j - 2];
      } else if j >= 6 + |note.0| {
        assert line[j] == note.1[j - 6 - |note.0|];
      }
    }
  }

  /**
   * When no note key or value holds a line break, splitting the notes block at
   * line breaks recovers exactly one "**k:** v" line per note, in order.
   */
  lemma NotesOneLineEach(notes: OMap<string>)
    requires forall i :: 0 <= i < |notes| ==> '\n' !in notes[i].0 && '\n' !in notes[i].1
    ensures Split(NotesText(notes), '\n') == [""] + NoteLines(notes)
  {
    NotesTextIsJoin(notes);
    LinesHaveNoBreak(notes);
    SplitJoin([""] + NoteLines(notes), '\n');
  }

  lemma LinesHaveNoBreak(notes: OMap<string>)
    requires forall i :: 0 <= i < |notes| ==> '\n' !in notes[i].0 && '\n' !in notes[i].1
    ensures forall i :: 0 <= i < |notes| + 1 ==> '\n' !in ([""] + NoteLines(notes))[i]
  {
    var lines := [""] + NoteLines(notes);
    forall i | 0 <= i < |lines|
      ensures '\n' !in lines[i]
    {
      if i > 0 {
        assert lines[i] == NoteLine(notes[i - 1]);
        NoteLineHasNoBreak(notes[i - 1]);
      } else {
        assert lines[i] == "";
      }
    }
  }
}

=== FILE: seqs.dfy ===
/** Small facts about sequences, stated for any element type so that they stay cheap to use. */
module Seqs {
  /** Putting the head back in front of the tail gives the sequence again, after any prefix. */
  lemma AppendHead<T>(m: seq<T>, s: seq<T>)
    requires |s| > 0
    ensures m + [s[0]] + s[1..] == m + s
  {
    assert [s[0]] + s[1..] == s;
  }

  /** Regrouping a concatenation of four pieces. */
  lemma Regroup<T>(a: seq<T>, b: seq<T>, c: seq<T>, d: seq<T>)
    ensures a + b + (c + d) == a + (b + c + d)
  {
  }

  /** The first element alone is the prefix of length one. */
  lemma FirstPrefix<T>(s: seq<T>)
    requires |s| > 0
    ensures s[..1] == [s[0]]
  {
  }

  /** The first `k + 1` elements are the head followed by the first `k` of the tail. */
  lemma PrefixCons<T>(s: seq<T>, k: nat)
    requires k < |s|
    ensures [s[0]] + s[1..][..k] == s[..k + 1]
  {
  }

  /** Element `i` of the tail is element `i + 1` of the sequence. */
  lemma TailIndex<T>(s: seq<T>, i: nat)
    requires i + 1 < |s|
    ensures s[1..][i] == s[i + 1]
  {
  }

  /** No element occurs twice. */
  predicate Distinct<T(==)>(s: seq<T>) {
    forall i, j :: 0 <= i < j < |s| ==> s[i] != s[j]
  }

  /** A sequence without repeats is its head, absent from the tail, followed by a tail without repeats. */
  lemma DistinctCons<T>(s: seq<T>)
    requires |s| > 0
    ensures Distinct(s) <==> s[0] !in s[1..] && Distinct(s[1..])
  {
    if Distinct(s) {
      forall i, j | 0 <= i < j < |s| - 1
        ensures s[1..][i] != s[1..][j]
      {
        assert s[1..][i] == s[i + 1] && s[1..][j] == s[j + 1];
      }
    }
    if s[0] !in s[1..] && Distinct(s[1..]) {
      forall i, j | 0 <= i < j < |s|
        ensures s[i] != s[j]
      {
        assert s[j] == s[1..][j - 1];
        if i > 0 {
          assert s[i] == s[1..][i - 1];
        }
      }
    }
  }

  /** The elements of `s` that satisfy `p`, in their order in `s`. */
  function Filter<T>(s: seq<T>, p: T -> bool): (r: seq<T>)
    ensures |r| <= |s|
    ensures forall k :: 0 <= k < |r| ==> p(r[k])
  {
    if |s| == 0 then []
    else if p(s[0]) then [s[0]] + Filter(s[1..], p) else Filter(s[1..], p)
  }

  /** Every kept element comes from some position of `s`. */
  lemma {:induction false} FilterSource<T>(s: seq<T>, p: T -> bool, b: nat) returns (j: nat)
    requires b < |Filter(s, p)|
    ensures j < |s| && s[j] == Filter(s, p)[b]
  {
    var tail := s[1..];
    var r := Filter(s, p);
    if p(s[0]) {
      assert r == [s[0]] + Filter(tail, p);
      if b == 0 {
        j := 0;
      } else {
        var k := FilterSource(tail, p, b - 1);
        j := k + 1;
      }
    } else {
      assert r == Filter(tail, p);
      var k := FilterSource(tail, p, b);
      j := k + 1;
    }
  }

  /** Two kept elements come from positions of `s` in the same order as in the result. */
  lemma {:induction false} FilterOrder<T>(s: seq<T>, p: T -> bool, a: nat, b: nat) returns (i: nat, j: nat)
    requires a < b < |Filter(s, p)|
    ensures i < j < |s| && s[i] == Filter(s, p)[a] && s[j] == Filter(s, p)[b]
  {
    var tail := s[1..];
    var r := Filter(s, p);
    if p(s[0]) {
      assert r == [s[0]] + Filter(tail, p);
      if a == 0 {
        var k := FilterSource(tail, p, b - 1);
        i, j := 0, k + 1;
      } else {
        var i', j' := FilterOrder(tail, p, a - 1, b - 1);
        i, j := i' + 1, j' + 1;
      }
    } else {
      assert r == Filter(tail, p);
      var i', j' := FilterOrder(tail, p, a, b);
      i, j := i' + 1, j' + 1;
    }
  }
}

=== FILE: state.dfy ===
/**
 * The bot's state: the persisted configuration document (endpoints and watch
 * groups), the in-memory status cache and message-handle cache, and a log of
 * every document rewrite.
 */
module Model {
  import opened Wrappers
  import opened OrderedMap

  /**
   * One status query's answer (`a2s.SourceInfo`). A record whose `serverName`
   * is `None` is what `a2s.SourceInfo()` builds when a query fails.
   */
  datatype SourceInfo = SourceInfo(serverName: Option<string>, playerCount: int, maxPlayers: int, mapName: string)

  /** The record stored for an endpoint whose query failed in a caught way. */
  const EmptyInfo := SourceInfo(None, 0, 0, "")

  /** A configured endpoint: display name, lower-cased country code and ordered notes. */
  datatype Server = Server(name: string, country: string, notes: OMap<string>)

  /**
   * The persisted document: `servers` keyed by "ip:port" and `active_messages`
   * keyed by "channel_id:message_id". The role list is not part of this model.
   */
  datatype Config = Config(servers: OMap<Server>, activeMessages: OMap<seq<string>>)

  /** A resolved chat message that can be edited; its identity is all the model needs. */
  datatype MessageHandle = MessageHandle(id: nat)

  /**
   * `config`, `global_vars["server_data"]`, `global_vars["cached_message_objects"]`,
   * and `writes`: the snapshots written by each `write_config()`, oldest first.
   */
  datatype State = State(
    config: Config,
    serverData: map<string, SourceInfo>,
    cachedMessages: map<string, MessageHandle>,
    writes: seq<Config>)

  /** Both document maps are dictionaries, so no key repeats. */
  predicate WellFormed(st: State) {
    UniqueKeys(st.config.servers) && UniqueKeys(st.config.activeMessages)
  }

  /** `write_config()`: the whole document is written as it stands. */
  function WriteConfig(st: State): State {
    st.(writes := st.writes + [st.config])
  }

  /** An exception that escapes a handler or a monitoring cycle. */
  datatype Failure =
    | MalformedEndpointKey(key: string)   // "ip:port" does not split into two parts
    | MalformedPort(key: string)          // the port part is not an integer
    | UnknownEndpoint(key: string)        // the re-built key is not configured
    | QueryError(key: string)             // an uncaught query exception
    | MalformedGroupKey(group: string)    // "channel:message" does not split into two parts
    | FetchError(group: string)           // fetching the channel or message failed
    | MissingServer(key: string)          // `del` of a key that is not configured
}

=== FILE: text.dfy ===
/**
 * The pieces of Python's string handling the bot relies on: `str.strip`,
 * `str.lower`, `str.split`, `in` on strings, `str(int)` and `int(str)`.
 * Characters are Unicode code points; case folding is modelled for ASCII only.
 */
module Text {
  import opened Wrappers

  /** Python's `str.isspace` for a single code point. */
  predicate IsSpace(c: char) {
    var n := c as int;
    n == 0x20 || 0x09 <= n <= 0x0D || 0x1C <= n <= 0x1F || n == 0x85 || n == 0xA0
    || n == 0x1680 || 0x2000 <= n <= 0x200A || n == 0x2028 || n == 0x2029
    || n == 0x202F || n == 0x205F || n == 0x3000
  }

  predicate IsDigit(c: char) {
    '0' <= c <= '9'
  }

  /** How many whitespace characters `s` starts with. */
  function LeadingSpace(s: string): (n: nat)
    ensures n <= |s|
    ensures forall i :: 0 <= i < n ==> IsSpace(s[i])
    ensures n == |s| || !IsSpace(s[n])
  {
    if |s| > 0 && IsSpace(s[0]) then 1 + LeadingSpace(s[1..]) else 0
  }

  /** How many whitespace characters `s` ends with. */
  function TrailingSpace(s: string): (n: nat)
    ensures n <= |s|
    ensures forall i :: |s| - n <= i < |s| ==> IsSpace(s[i])
    ensures n == |s| || !IsSpace(s[|s| - n - 1])
  {
    if |s| > 0 && IsSpace(s[|s| - 1]) then 1 + TrailingSpace(s[..|s| - 1]) else 0
  }

  /**
   * Python's `str.strip()` with no argument: the result is the piece of `s`
   * left after dropping whitespace from both ends, and it neither starts nor
   * ends with whitespace.
   */
  function Strip(s: string): (r: string)
    ensures LeadingSpace(s) + |r| <= |s| && r == s[LeadingSpace(s)..LeadingSpace(s) + |r|]
    ensures forall i :: 0 <= i < LeadingSpace(s) ==> IsSpace(s[i])
    ensures forall i :: LeadingSpace(s) + |r| <= i < |s| ==> IsSpace(s[i])
    ensures |r| == 0 || (!IsSpace(r[0]) && !IsSpace(r[|r| - 1]))
    ensures (forall i :: 0 <= i < |s| ==> !IsSpace(s[i])) ==> r == s
  {
    var n := LeadingSpace(s);
    var t := s[n..];
    var m := TrailingSpace(t);
    assert n < |s| ==> s[n] == t[0];
    t[..|t| - m]
  }

  /** ASCII part of Python's `str.lower()`. */
  function LowerChar(c: char): (d: char)
    ensures !('A' <= d <= 'Z')
    ensures !('A' <= c <= 'Z') ==> d == c
  {
    if 'A' <= c <= 'Z' then (c as int - 'A' as int + 'a' as int) as char else c
  }

  function Lower(s: string): (r: string)
    ensures |r| == |s|
    ensures forall i :: 0 <= i < |r| ==> r[i] == LowerChar(s[i])
  {
    if |s| == 0 then [] else [LowerChar(s[0])] + Lower(s[1..])
  }

  /** Python's `sub in s` for strings. */
  predicate Contains(s: string, sub: string)
    decreases |s|
  {
    sub <= s || (|s| > 0 && Contains(s[1..], sub))
  }

  /** `sub in s` holds exactly when `sub` starts at some position of `s`. */
  lemma {:induction false} ContainsAt(s: string, sub: string)
    ensures Contains(s, sub) <==> exists i :: 0 <= i <= |s| && sub <= s[i..]
    decreases |s|
  {
    if sub <= s {
      assert s[0..] == s;
    } else if |s| > 0 {
      ContainsAt(s[1..], sub);
      if Contains(s, sub) {
        var i :| 0 <= i <= |s| - 1 && sub <= s[1..][i..];
        assert s[1..][i..] == s[i + 1..];
      } else {
        forall i | 0 <= i <= |s|
          ensures !(sub <= s[i..])
        {
          if i == 0 {
            assert s[0..] == s;
          } else {
            assert s[1..][i - 1..] == s[i..];
          }
        }
      }
    } else {
      assert forall i :: 0 <= i <= |s| ==> s[i..] == s;
    }
  }

  /** The position of the first `c` in `s`. */
  function IndexOf(s: string, c: char): (i: nat)
    requires c in s
    ensures i < |s| && s[i] == c && c !in s[..i]
  {
    if s[0] == c then 0 else 1 + IndexOf(s[1..], c)
  }

  /** The first `c` after a `c`-free prefix is right after that prefix. */
  lemma {:induction false} IndexOfAfter(a: string, c: char, b: string)
    requires c !in a
    ensures IndexOf(a + [c] + b, c) == |a|
  {
    if |a| > 0 {
      assert (a + [c] + b)[1..] == a[1..] + [c] + b;
      IndexOfAfter(a[1..], c, b);
    }
  }

  /** A run of digits holds no other character. */
  lemma DigitsHaveNo(s: string, c: char)
    requires AllDigits(s) && !IsDigit(c)
    ensures c !in s
  {
  }

  /** Python's `sep.join(parts)` for a one-character separator. */
  function Join(parts: seq<string>, sep: char): string
    requires |parts| >= 1
  {
    if |parts| == 1 then parts[0] else parts[0] + [sep] + Join(parts[1..], sep)
  }

  /** Python's `s.split(sep)` for a one-character separator: the pieces hold no separator and join back to `s`. */
  function Split(s: string, sep: char): (parts: seq<string>)
    ensures |parts| >= 1
    ensures forall i :: 0 <= i < |parts| ==> sep !in parts[i]
    ensures Join(parts, sep) == s
    decreases |s|
  {
    if sep !in s then [s]
    else
      var i := IndexOf(s, sep);
      var rest := Split(s[i + 1..], sep);
      assert s == s[..i] + [sep] + s[i + 1..];
      [s[..i]] + rest
  }

  /** Splitting undoes joining when no piece holds the separator. */
  lemma {:induction false} SplitJoin(parts: seq<string>, sep: char)
    requires |parts| >= 1
    requires forall i :: 0 <= i < |parts| ==> sep !in parts[i]
    ensures Split(Join(parts, sep), sep) == parts
  {
    if |parts| > 1 {
      var s := Join(parts, sep);
      var p := parts[0];
      var q := Join(parts[1..], sep);
      assert s == p + [sep] + q;
      SplitStep(p, q, sep);
      SplitJoin(parts[1..], sep);
    }
  }

  /** A first piece without the separator is split off whole. */
  lemma SplitStep(p: string, q: string, sep: char)
    requires sep !in p
    ensures Split(p + [sep] + q, sep) == [p] + Split(q, sep)
  {
    var s := p + [sep] + q;
    assert s[|p|] == sep;
    IndexOfAfter(p, sep, q);
    assert s[..|p|] == p;
    assert s[|p| + 1..] == q;
  }

  /** `a + sep + b` splits into exactly `[a, b]` when neither half holds the separator. */
  lemma SplitPair(a: string, b: string, sep: char)
    requires sep !in a && sep !in b
    ensures Split(a + [sep] + b, sep) == [a, b]
  {
    assert Join([a, b], sep) == a + [sep] + b;
    SplitJoin([a, b], sep);
  }

  /** When the left half already holds the separator, the split yields more than two pieces. */
  lemma {:induction false} SplitMoreThanTwo(a: string, b: string, sep: char)
    requires sep in a
    ensures |Split(a + [sep] + b, sep)| > 2
  {
    var s := a + [sep] + b;
    var i := IndexOf(a, sep);
    assert s[..i + 1] == a[..i + 1];
    assert IndexOf(s, sep) == i;
    var rest := s[i + 1..];
    assert rest == a[i + 1..] + [sep] + b;
    assert sep in rest by {
      assert rest[|a| - i - 1] == sep;
    }
    var tail := Split(rest, sep);
    assert |tail| >= 2;
  }

  // ---- decimal numerals ----

  function DigitChar(d: nat): (c: char)
    requires d < 10
    ensures IsDigit(c)
  {
    ('0' as int + d) as char
  }

  function DigitValue(c: char): (d: nat)
    requires IsDigit(c)
    ensures d < 10
  {
    c as int - '0' as int
  }

  predicate AllDigits(s: string) {
    forall i :: 0 <= i < |s| ==> IsDigit(s[i])
  }

  /** The number a string of decimal digits denotes. */
  function DigitsValue(s: string): nat
    requires AllDigits(s)
  {
    if |s| == 0 then 0 else DigitsValue(s[..|s| - 1]) * 10 + DigitValue(s[|s| - 1])
  }

  /** Python's `str(n)` for a natural number: nonempty decimal digits. */
  function NatToString(n: nat): (s: string)
    ensures |s| >= 1 && AllDigits(s)
    ensures s[0] == '0' <==> n == 0
    ensures n == 0 ==> s == "0"
    decreases n
  {
    if n < 10 then [DigitChar(n)] else NatToString(n / 10) + [DigitChar(n % 10)]
  }

  /** Python's `str(i)` for an integer. */
  function IntToString(i: int): (s: string)
    ensures |s| >= 1
    ensures ':' !in s
    ensures forall k :: 0 <= k < |s| ==> IsDigit(s[k]) || s[k] == '-'
    ensures s[0] == '-' <==> i < 0
    ensures forall k :: 0 < k < |s| ==> IsDigit(s[k])
    ensures s[0] == '0' ==> s == "0"
    ensures s[0] == '-' ==> |s| >= 2 && s[1] != '0'
  {
    if i < 0 then "-" + NatToString(-i) else NatToString(i)
  }

  /** Reading back a printed natural number gives the number. */
  lemma {:induction false} DigitsValueOfNatToString(n: nat)
    ensures DigitsValue(NatToString(n)) == n
    decreases n
  {
    if n >= 10 {
      var s := NatToString(n);
      DigitsValueOfNatToString(n / 10);
      assert s[..|s| - 1] == NatToString(n / 10);
    }
  }

  /** The digits of a numeral in the underscore-separated form Python's `int()` accepts. */
  predicate GroupedDigits(s: string) {
    && |s| > 0 && IsDigit(s[0]) && IsDigit(s[|s| - 1])
    && (forall i :: 0 <= i < |s| ==> IsDigit(s[i]) || s[i] == '_')
    && (forall i :: 0 <= i < |s| - 1 ==> IsDigit(s[i]) || IsDigit(s[i + 1]))
  }

  /** Drops the underscores of a grouped numeral. */
  function Ungroup(s: string): (d: string)
    requires forall i :: 0 <= i < |s| ==> IsDigit(s[i]) || s[i] == '_'
    ensures AllDigits(d)
    ensures AllDigits(s) ==> d == s
  {
    if |s| == 0 then [] else (if s[0] == '_' then [] else [s[0]]) + Ungroup(s[1..])
  }

  /**
   * The ASCII separators U+001C-U+001F: `str.strip()` drops them, but `int()`
   * keeps every ASCII character as it is and then skips only tab, the line
   * breaks, vertical tab, form feed and space around the numeral.
   */
  predicate IsAsciiSeparator(c: char) {
    '\U{1C}' <= c <= '\U{1F}'
  }

  /** The whitespace `int()` skips around a numeral: Python's set without the ASCII separators. */
  predicate IntSpace(c: char) {
    IsSpace(c) && !IsAsciiSeparator(c)
  }

  /**
   * Python's `int(s)` in base 10: surrounding whitespace, an optional sign and
   * digits with single underscores between them; `None` stands for `ValueError`.
   * An ASCII separator is neither whitespace to `int()` nor part of a numeral,
   * so one anywhere in `s` rejects it; without one, `IntSpace` and `IsSpace`
   * agree and `Strip` removes exactly what `int()` skips.
   */
  function ParseInt(s: string): (r: Option<int>)
    ensures (forall i :: 0 <= i < |s| ==> !IsDigit(s[i])) ==> r.None?
    ensures r.Some? ==> forall i :: 0 <= i < |s| ==> IntSpace(s[i]) || NumeralChar(s[i])
  {
    if exists i :: 0 <= i < |s| && IsAsciiSeparator(s[i]) then None
    else
      var t := Strip(s);
      var n := LeadingSpace(s);
      assert forall i :: 0 <= i < |t| ==> t[i] == s[n + i];
      var r := ParseSigned(t);
      assert r.Some? ==> forall i :: n <= i < n + |t| ==> NumeralChar(s[i]) by {
        if r.Some? {
          forall i | n <= i < n + |t| ensures NumeralChar(s[i]) {
            assert s[i] == t[i - n];
          }
        }
      }
      r
  }

  /** A character `int()` accepts between the surrounding whitespace. */
  predicate NumeralChar(c: char) {
    IsDigit(c) || c == '+' || c == '-' || c == '_'
  }

  /** `int()` after the whitespace is gone: an optional sign, then a grouped numeral. */
  function ParseSigned(t: string): (r: Option<int>)
    ensures (forall i :: 0 <= i < |t| ==> !IsDigit(t[i])) ==> r.None?
    ensures r.Some? ==> forall i :: 0 <= i < |t| ==> NumeralChar(t[i])
  {
    if |t| > 0 && (t[0] == '+' || t[0] == '-') then
      var body := t[1..];
      if GroupedDigits(body) then
        assert IsDigit(t[1]);
        var v: int := DigitsValue(Ungroup(body));
        Some(if t[0] == '-' then -v else v)
      else None
    else if GroupedDigits(t) then
      Some(DigitsValue(Ungroup(t)))
    else None
  }

  /** A numeral holds no whitespace, so stripping leaves it alone. */
  lemma StripNumeral(s: string)
    requires forall k :: 0 <= k < |s| ==> IsDigit(s[k]) || s[k] == '-'
    ensures Strip(s) == s
  {
    assert forall k :: 0 <= k < |s| ==> !IsSpace(s[k]);
  }

  lemma GroupedNumeral(n: nat)
    ensures GroupedDigits(NatToString(n)) && Ungroup(NatToString(n)) == NatToString(n)
  {
  }

  lemma ParseNatString(n: nat)
    ensures ParseInt(NatToString(n)) == Some(n)
  {
    var s := NatToString(n);
    StripNumeral(s);
    assert !(s[0] == '+' || s[0] == '-');
    GroupedNumeral(n);
    DigitsValueOfNatToString(n);
  }

  lemma ParseNegativeString(i: int)
    requires i < 0
    ensures ParseInt("-" + NatToString(-i)) == Some(i)
  {
    var n: nat := -i;
    var d := NatToString(n);
    var s := "-" + d;
    assert IntToString(i) == s;
    StripNumeral(s);
    GroupedNumeral(n);
    DigitsValueOfNatToString(n);
    assert s[0] == '-' && s[1..] == d;
    assert ParseSigned(s) == Some(i);
  }

  /** `int(str(i)) == i`: printing an integer and parsing it back is the identity. */
  lemma ParseIntToString(i: int)
    ensures ParseInt(IntToString(i)) == Some(i)
  {
    if i < 0 {
      ParseNegativeString(i);
    } else {
      ParseNatString(i);
    }
  }
}

=== FILE: validation.dfy ===
/**
 * The input checks applied when an endpoint is added (validation.py). The IP
 * literal grammar and the ISO 3166 table belong to libraries and are given as
 * predicates.
 */
module Validation {

  const MinPort := 1
  const MaxPort := 65535

  /** `validate_ip`: true exactly when `ipaddress.ip_address` accepts the text. */
  function ValidateIp(ip: string, parsesAsIp: string -> bool): (ok: bool)
    ensures ok <==> parsesAsIp(ip)
  {
    parsesAsIp(ip)
  }

  /** `validate_port`: the port must lie in 1..65535. */
  function ValidatePort(port: int): (ok: bool)
    ensures ok <==> MinPort <= port <= MaxPort
    ensures port == 0 || port == -1 || port >= 65536 ==> !ok
  {
    !(port > 65535 || port < 1)
  }

  /**
   * `validate_country`: a code of any length other than two is refused without
   * consulting the table; a two-character code is accepted exactly when the
   * ISO 3166 lookup finds it.
   */
  function ValidateCountry(country: string, inIsoTable: string -> bool): (ok: bool)
    ensures |country| != 2 ==> !ok
    ensures |country| == 2 ==> (ok <==> inIsoTable(country))
  {
    if |country| != 2 then false else inIsoTable(country)
  }
}

=== FILE: wrappers.dfy ===
/** The optional-value datatype shared by the whole model. */
module Wrappers {

  /** A value that may be absent, in place of Python's `None` or a caught exception. */
  datatype Option<+T> = None | Some(value: T)
}
